=== FILE: README.md ===
# Workout log engine of `app.py`, modelled in Dafny

`app.py` is a single Streamlit script that keeps a strength-training log in a
Google sheet. Each row of that log is one set: Cycle, Semaine (week), Séance (session),
Exercice, Série (set number), Reps, Poids (load in kg) and Remarque (note).
Beside the UI, the script holds a small engine, and this project models that
engine as pure functions over immutable data:

- **Coercion** (`coercion.dfy`): the load-time coercion of raw sheet cells.
- **History** (`history.dfy`):
  - the week-10 alias;
  - the query for strictly older history;
  - the last two periods and the baseline period;
  - the rows already logged for the current period.
- **Comparator** (`comparator.dfy`): the set comparator that colours a logged
  set green or red against the same Série of the baseline.
- **Estimator** (`estimator.dfy`): the Epley one-rep-max estimate.
- **Reconcile** (`reconcile.dfy`):
  - the save, an upsert keyed by (cycle, week, session, exercise);
  - the append-only skip and missed-session markers.
- **Aggregates** (`aggregates.dfy`):
  - total volume;
  - the three-exercise podium;
  - the per-exercise record;
  - the chart series;
  - the preselected cycle.
- **Program** (`program.dfy`):
  - the program of sessions;
  - its one-time migration from lists of plain names;
  - its edits: reorder, remove, append, set count, new session.
- **Shared helpers**:
  - `rows.dfy` holds the row datatype and the orders the app compares rows by;
  - `seqs.dfy` holds the pandas operations the engine uses, written as sequence operations: boolean-mask selection, stable sort, `drop_duplicates` and `head`.

Weights and 1RM values are exact `real`s. Integer columns are unbounded `int`s.
The sheet, the program cell and the UI become parameters: the log is a
`seq<Row>` and the program is a `seq<Session>` in key order.

Four behaviours of the code worth noting:

- The estimate has no `reps == 1` case: one rep at load `w` gives `31w/30`, not `w`.
- Total volume sums `Poids × Reps` over every row, not only over performed sets.
- The comparator uses the raw load first and the reps second. It never consults the 1RM estimate.
- The podium's load and reps columns are independent per-exercise maxima. They are not the load and reps of the row with the best estimate.

## Model

| member | source | states |
|---|---|---|
| Rows.OutperformsStrictTotal | app.py:84-85 | "heavier, or as heavy with more reps" is irreflexive, asymmetric, transitive and total on distinct performances |
| Rows.NewerOrSameTotalPreorder | app.py:211 | ordering rows by (Cycle, Semaine) descending is a total preorder, so the history sort is well defined |
| Seqs.Filter | app.py:209 | a boolean-mask selection keeps exactly the rows satisfying the mask, never more rows than the input |
| Seqs.FilterConcat | app.py:242 | selecting from a concatenation concatenates the selections |
| Seqs.FilterMultiset | app.py:241-242 | a selection and its complement (`df_h[mask]` and `df_h[~mask]`) together are the whole input, counted with multiplicity |
| Seqs.Sort | app.py:211 | sort_values returns a permutation of its input, ordered whenever the order is a total preorder |
| Seqs.SortStable | app.py:211 | the multi-column sort is stable: rows that compare equal keep their log order |
| Seqs.DistinctKeys | app.py:212 | drop_duplicates lists every key present, each exactly once, the first row's key first |
| Seqs.Take | app.py:212 | head(n) keeps the first n elements, or all of them when there are fewer |
| Seqs.Swap | app.py:145 | a neighbour exchange permutes the list, exchanges the two places and leaves every other place as it was |
| Seqs.SwapTwice | app.py:144-149 | exchanging the same two places twice restores the list |
| Seqs.RemoveAt | app.py:167 | pop(i) removes exactly position i and shifts the later elements down by one |
| Coercion.ParseNumber | app.py:105-108 | text is a number only when it holds a digit, uses nothing but digits, at most one point and a leading sign; a leading '-' gives a value ≤ 0, anything else a value ≥ 0 |
| Coercion.ParseSplit | app.py:105-108 | digits, a point and digits are read as the whole part plus the fractional digits scaled by 10 to the number of fractional digits |
| Coercion.ParseDecimal | app.py:105-108 | any decimal a.b written out in digits is read back as a + b / 10^(digits of b), so the fraction is never dropped |
| Coercion.ParseSignedDecimal | app.py:105-108 | "-a.b" is read as the negated decimal and "+a.b" as the decimal itself |
| Coercion.FractionKept | app.py:105 | a Poids typed as "62.5" loads as 62.5 |
| Coercion.MalformedPointsFallBack | app.py:105-108 | "." and "1.2.3" are not numbers |
| Coercion.ToNumeric | app.py:105-108 | `to_numeric(errors='coerce')`: an empty cell is NaN, a number passes through, text is read by `ParseNumber`, and text is a number only if it has a digit, at most one point, and no character other than digits, the point and a leading sign |
| Coercion.CoerceReal | app.py:105 | the Poids column: NaN becomes the default, any number is kept exactly |
| Coercion.TruncToZero | app.py:106-108 | astype(int) truncates toward zero: the result is within one of the value, on the value's side of zero |
| Coercion.CoerceInt | app.py:106-108 | a cell that is not a number becomes the column default; a number is truncated toward zero |
| Coercion.LoadRow | app.py:105-108 | an unusable Poids becomes 0.0, Reps 0, Semaine 1 and Cycle 1; a numeric Poids passes through; a numeric Reps, Semaine or Cycle loads as its truncation toward zero; Séance, Exercice, Série and Remarque are untouched |
| Coercion.LoadLog | app.py:100-109 | loading coerces the sheet record by record, keeping the order and the count |
| Coercion.IntegralPassesThrough | app.py:106-108 | a whole number in an integer column loads as itself, whatever the default |
| Coercion.CoerceIntIdempotent | app.py:106-108 | coercing an already coerced integer changes nothing |
| Coercion.ParseShowInt | app.py:105-108 | any whole number typed as text, in decimal, loads back as exactly that number |
| Coercion.CommaFallsBack | app.py:105-107 | a decimal comma ("3,5") is not a number and loads as the 0.0 default; an empty Semaine loads as week 1 |
| Estimator.OneRepMax | app.py:70-72 | no reps gives 0; otherwise 30·e = w·(30 + reps); a non-negative load is never estimated below itself |
| Estimator.MonotoneInReps | app.py:70-72 | for a non-negative load, more reps never lower the estimate |
| Estimator.MonotoneInWeight | app.py:70-72 | for a fixed rep count, a heavier load never lowers the estimate |
| Estimator.SingleRepIsInflated | app.py:70-72 | one rep is not treated as a 1RM: a positive load w is estimated at 31w/30 > w |
| Estimator.FiveRepsAtHundred | app.py:70-72 | 100 kg × 5 is estimated at 350/3 kg |
| Comparator.Classify | app.py:82-85 | improved exactly when the current set outperforms the baseline set, regressed exactly when the baseline outperforms it, unchanged exactly when they are equal |
| Comparator.ClassifySwap | app.py:84-85 | exchanging the current and baseline sets exchanges improved and regressed and keeps unchanged |
| Comparator.Judge | app.py:76-85 | no signal exactly when no baseline row has the same Série; otherwise the signal comes from the first such row |
| Comparator.FirstMatch | app.py:76-82 | `.iloc[0]` of the Série selection is the first baseline row with that Série, and the selection is empty exactly when no such row exists |
| Comparator.StyleComparison | app.py:74-86 | four styles; Série and Remarque are never coloured; Reps and Poids share one style, green exactly when improved and red exactly when regressed |
| Comparator.NoHistoryNoColour | app.py:75 | with no previous session the four styles are all empty |
| Comparator.LighterMoreRepsRegresses | app.py:84-85 | a lighter set with more reps is a regression even when its estimated 1RM is higher |
| Comparator.HeavierFewerRepsImproves | app.py:84 | a heavier set with fewer reps is an improvement |
| History.StoreWeek | app.py:190-191 | entered weeks 1..10 are stored as 0..9, and the stored week maps back to the entered one |
| History.EnteredWeek | app.py:191 | every stored week 0..9 corresponds to an entered week 1..10 |
| History.StoreWeekBijective | app.py:191 | storing the entered week of a stored week gives that stored week back |
| History.Week10PrecedesWeek1 | app.py:210 | because of the alias, week 10 of a cycle counts as older than week 1 of the same cycle, and week 9 does not precede week 10 |
| History.Older | app.py:209-211 | the history is a permutation of the rows of this exercise and session strictly older than the target period (duplicates kept), newest period first |
| History.DistinctPeriods | app.py:212 | the distinct (Cycle, Semaine) pairs are exactly the periods present, each listed once, the first row's period first |
| History.DistinctPeriodsDescending | app.py:211-212 | over the sorted history the distinct periods strictly decrease, so none repeats |
| History.RecentPeriods | app.py:212 | at most two recent periods are kept |
| History.RecentPeriodsDescend | app.py:211-212 | the recent periods are strictly decreasing |
| History.RecentPeriodsHaveData | app.py:209-212 | each recent period is an earlier period with data for this exercise and session |
| History.RecentPeriodsAreNewest | app.py:209-212 | every earlier period with data is one of the recent periods or older than both |
| History.Baseline | app.py:221 | no baseline exactly when there is no older row; otherwise the baseline is the newest period among the older rows |
| History.BaselineIsNewestRecent | app.py:212-221 | the baseline is the first of the recent periods, and exists exactly when they are not empty |
| History.BaselineRows | app.py:221 | the baseline rows are the rows of this exercise and session in the baseline period, in log order |
| History.CurrentRows | app.py:220 | the rows shown as already validated are exactly this exercise's and session's rows of the target period |
| History.BaselineExample | app.py:209-221 | with data at (1,5), (2,1), (2,2) and (2,3), the baseline for cycle 2, week 3 is (2,2) |
| Program.ItemName | app.py:155 | the name shown for a well-formed entry is its "name" text, and a legacy plain name is shown as itself |
| Program.MigrateItems | app.py:126-128 | a list starting with a plain name has every element, objects included, wrapped as an entry with 3 sets, names kept; an all-plain list becomes well-formed; other lists are kept |
| Program.Migrate | app.py:126-128 | the migration keeps every session, its name and its place, and migrates each list |
| Program.MigrateIdempotent | app.py:123-128 | migrating a migrated program changes nothing, and migration keeps session names unique |
| Program.MoveSessionUp | app.py:144-146 | moving a session up exchanges it with its predecessor, unless it is first, and keeps the sessions as a multiset |
| Program.MoveSessionDown | app.py:147-149 | moving a session down exchanges it with its successor, unless it is last, and keeps the sessions as a multiset |
| Program.MoveUpThenDown | app.py:144-149 | moving a session up and then back down restores the program; reordering keeps names unique |
| Program.DeleteSession | app.py:150-151 | deleting a session removes exactly it, keeps the others in order, and its name is gone |
| Program.NewSession | app.py:177-179 | an empty name changes nothing; a new name is appended with no exercises; with unique names, an existing session keeps its place and loses its exercises; names stay unique |
| Program.SetSets | app.py:158-161 | only the set count of the chosen exercise changes; its name, every other entry and every session name are kept |
| Program.SetSetsLastWins | app.py:158-161 | setting a count twice keeps only the last, and setting the current count changes nothing |
| Program.MoveItemUp | app.py:162-163 | an exercise moves up by exchange with its predecessor, unless it is first; every other place of the session, its name and every other session are kept |
| Program.MoveItemDown | app.py:164-165 | an exercise moves down by exchange with its successor, unless it is last; every other place of the session, its name and every other session are kept |
| Program.MoveItemUpThenDown | app.py:162-165 | moving an exercise up and back down restores the program |
| Program.RemoveItem | app.py:166-167 | removing an exercise drops exactly that entry of that session; session names and other sessions are kept |
| Program.AddItem | app.py:171-174 | a typed name is appended as a well-formed entry with the chosen set count; an empty name changes nothing |
| Reconcile.Entered | app.py:239 | an editor line is kept exactly when, once stamped, it is a performed set (`Poids > 0 or Reps > 0`, the test the record uses) |
| Reconcile.Stamp | app.py:240 | every kept editor line is stamped with the key, with its Série, Reps, Poids and Remarque unchanged |
| Reconcile.Save | app.py:239-242 | the rows off the key are kept in order, and the stamped entered lines are appended after them, so the rows on the key are exactly those lines; no idle set is added |
| Reconcile.SaveReplacesKeyRows | app.py:239-242 | counted with multiplicity, a save removes exactly the rows under the key, adds exactly the stamped entered lines, and keeps every other row |
| Reconcile.SaveOnlyDependsOnOtherKeys | app.py:241-242 | the saved log depends only on the rows outside the key and the editor contents |
| Reconcile.SavedRowsAreCurrent | app.py:220-242 | reading the period back after a save shows exactly the entered lines, in editor order |
| Reconcile.LastSaveWins | app.py:239-242 | a second save under the same key erases every trace of the first |
| Reconcile.SaveIdempotent | app.py:239-242 | saving the same editor contents twice is the same as saving once |
| Reconcile.SkipRow | app.py:248 | the skip marker is on the key, set 1, not a performed set, noted "SKIP 🚫" |
| Reconcile.AppendSkip | app.py:247-249 | skipping appends exactly one row, the skip marker of the key; it removes nothing and leaves the rows of every other key unchanged |
| Reconcile.SaveSupersedesSkip | app.py:241-249 | a later save under the key discards the skip marker |
| Reconcile.AppendMissed | app.py:193-195 | a missed session appends one "Loupée ❌" set-1 idle row per exercise of the session, in program order, and removes nothing |
| Reconcile.FirstSaveExample | app.py:239-242 | saving 60 kg × 8 and an empty line on an empty log stores the one performed set |
| Aggregates.TotalVolume | app.py:256 | an empty log has volume 0 and a single set has volume Poids × Reps, performed or not |
| Aggregates.VolumeAppend | app.py:256 | appending any set adds exactly its Poids × Reps to the total |
| Aggregates.VolumeNonNegative | app.py:256 | with no negative load or reps the total volume is not negative |
| Aggregates.VolumeConcat | app.py:256 | the volume of a concatenation is the sum of the volumes |
| Aggregates.VolumeSplits | app.py:256 | the volume splits between the rows of a key and all other rows |
| Aggregates.VolumeAfterSave | app.py:242-256 | a save changes the volume by the new rows' volume minus the old rows' volume on the key |
| Aggregates.VolumeOfIdleRows | app.py:256 | rows with no reps add no volume |
| Aggregates.SkipAddsNoVolume | app.py:247-256 | a skip marker leaves the total volume unchanged |
| Aggregates.MissedAddsNoVolume | app.py:193-256 | missed-session markers leave the total volume unchanged |
| Aggregates.VolumeExample | app.py:256 | 60 kg × 8 and 0 kg × 12 give a volume of 480 |
| Aggregates.Lifts | app.py:261 | the podium looks at exactly the rows with at least one rep |
| Aggregates.Summarise | app.py:263 | a group's line holds the maximum 1RM, maximum load and maximum reps of its rows, each attained by some row |
| Aggregates.Group | app.py:263 | every line is a true per-exercise summary and no exercise has two lines |
| Aggregates.GroupCovers | app.py:263 | every exercise with a row has a line |
| Aggregates.TopThree | app.py:263 | `head(3)` of the sorted lines keeps min(3, n) of them, each taken from the grouped lines with its multiplicity |
| Aggregates.Podium | app.py:261-263 | the podium has at most three lines |
| Aggregates.TopThreeDescending | app.py:263 | the lines are in descending order of 1RM |
| Aggregates.TopThreeDistinct | app.py:263 | the top three lines have distinct exercises |
| Aggregates.TopThreeMembers | app.py:263 | the top three are taken from the grouped lines |
| Aggregates.TopThreeCovers | app.py:263 | a line left out of the top three is no better than the third |
| Aggregates.PodiumIsRanked | app.py:261-263 | podium lines are in descending 1RM order, have distinct exercises, and carry true maxima over the rows with reps |
| Aggregates.PodiumLinesAreStandings | app.py:261-263 | each podium line carries true maxima over the rows with reps |
| Aggregates.GroupTopThree | app.py:263 | a row of an exercise missing from the top three is no better than the third line |
| Aggregates.PodiumIsTopThree | app.py:261-263 | a lift of an exercise missing from the podium has an estimated 1RM no higher than the third place |
| Aggregates.PodiumColumnsAreIndependent | app.py:263 | 100 kg × 1 and 60 kg × 10 of one exercise give a non-empty podium whose line shows 100 kg with 10 reps, a set nobody did |
| Aggregates.BestOf | app.py:283 | the first row of the stable descending (Poids, Reps) sort: a row of the selection that no row beats and every earlier row is strictly worse than |
| Aggregates.Performed | app.py:279-280 | the record's candidates are exactly the performed sets of the exercise, in log order |
| Aggregates.Record | app.py:279-283 | no record exactly when the exercise has no performed set; otherwise the record is a performed set of it that no other performed set beats |
| Aggregates.PeakWeight | app.py:289 | the heaviest load of a period is attained in that period and bounds every load in it |
| Aggregates.AscendingPeriods | app.py:289 | the grouped periods are exactly the periods present, strictly ascending |
| Aggregates.Peaks | app.py:289 | one point per period, each with that period's heaviest load |
| Aggregates.Chart | app.py:289 | chart points are in strictly ascending period order, each with its period's heaviest performed load, and every period with a performed set has a point |
| Aggregates.DefaultCycle | app.py:189 | the preselected cycle is the highest cycle in the log, or 1 for an empty log |

## Left out

- Streamlit UI: page style, tabs, expanders, buttons, toasts, reruns, and the `editing_exo` session state. These are presentation and UI state.
- Google Sheets access: `get_google_sheets`, `save_hist`, `save_prog`, and reading cell A1. Storage is the log and program value itself.
- The `except` branches that replace an unreadable sheet by an empty frame. The model starts from the sheet's records.
- The JSON parsing and writing of the program. Sessions are an already-parsed `seq<Session>`.
- Display formatting:
  - the `int(...)` truncation and thousands separator of the volume metric (line 256);
  - the `{:g}` and `:.1f` formats;
  - the chart's "C…-S…" point labels (line 290).
- The Cycle and Semaine metrics (lines 257-258), which are display only. The Cycle metric is the same maximum as `DefaultCycle`. The Semaine metric is the maximum stored week, so a week 10, stored as 0, never shows as the maximum.
- The bounds 1..100 and 1..10 that `number_input` enforces on the header fields.
- IEEE double arithmetic of pandas. Loads and estimates are exact reals.
- Coercion.ParseNumber models a subset of what `to_numeric` accepts: an optional sign, digits and an optional decimal point. It does not model:
  - surrounding whitespace;
  - exponents;
  - "inf" and "nan" spellings.
- Série is taken as an integer as read. `get_hist` does not coerce it.
- Program.ItemName: legacy lists that mix plain names and objects are not shown faithfully.
  - The migration wraps an object found after a plain name, so its "name" is itself an object. The model shows the inner name where the app would show the object.
  - A plain name found after an object makes `e["name"]` fail in the app. The model reads the name.
- The editor prefill of lines 229-232, which copies the current rows into a fixed grid of planned sets. The model takes the editor contents as given.
- The variant suffix of the exercise name (line 206). The model takes the exercise name as a key.
- The concatenated display of the two recent periods (line 216). It shows the same rows as `Older`, restricted to `RecentPeriods`.
- Aggregates.Podium: ties.
  - `groupby` orders exercises by name, and the single-column `sort_values` uses an unstable sort. The order of podium lines with equal 1RM is therefore unspecified.
  - The model groups in order of first appearance and sorts stably.
  - Every podium property above holds whatever the tie order.

=== FILE: aggregates.dfy ===
/** The progress tab: total volume, the three-exercise podium by estimated
    1RM, the record of one exercise, its chart of heaviest load per period,
    and the default cycle of the session header. */
module Aggregates {
  import opened Rows
  import opened Seqs
  import Estimator
  import Reconcile
  import History
  import Program

  /** `(Poids * Reps).sum()` over the whole log, performed sets or not. */
  function TotalVolume(log: seq<Row>): (v: real)
    ensures |log| == 0 ==> v == 0.0
    ensures |log| == 1 ==> v == log[0].weight * (log[0].reps as real)
  {
    if |log| == 0 then 0.0 else Volume(log[0]) + TotalVolume(log[1..])
  }

  function Volume(r: Row): real
  {
    r.weight * (r.reps as real)
  }

  /** With no negative load or rep count the volume is not negative. */
  lemma {:induction false} VolumeNonNegative(log: seq<Row>)
    requires forall r | r in log :: r.weight >= 0.0 && r.reps >= 0
    ensures TotalVolume(log) >= 0.0
  {
    if |log| > 0 {
      assert log[0] in log;
      Estimator.NonNegativeProduct(log[0].weight, log[0].reps as real);
      VolumeNonNegative(log[1..]);
    }
  }

  lemma {:induction false} VolumeConcat(a: seq<Row>, b: seq<Row>)
    ensures TotalVolume(a + b) == TotalVolume(a) + TotalVolume(b)
  {
    if |a| > 0 {
      assert (a + b)[1..] == a[1..] + b;
      assert (a + b)[0] == a[0];
      VolumeConcat(a[1..], b);
    } else {
      assert a + b == b;
    }
  }

  /** Appending a set adds exactly its load times its reps. */
  lemma VolumeAppend(log: seq<Row>, r: Row)
    ensures TotalVolume(log + [r]) == TotalVolume(log) + r.weight * (r.reps as real)
  {
    VolumeConcat(log, [r]);
  }

  /** The volume splits between the rows of any key and all the others. */
  lemma {:induction false} VolumeSplits(log: seq<Row>, k: SlotKey)
    ensures TotalVolume(log) == TotalVolume(Filter(log, OnKey(k))) + TotalVolume(Filter(log, OffKey(k)))
  {
    if |log| > 0 {
      VolumeSplits(log[1..], k);
      var head := [log[0]];
      FilterConcat(head, log[1..], OnKey(k));
      FilterConcat(head, log[1..], OffKey(k));
      assert head + log[1..] == log;
      VolumeConcat(Filter(head, OnKey(k)), Filter(log[1..], OnKey(k)));
      VolumeConcat(Filter(head, OffKey(k)), Filter(log[1..], OffKey(k)));
    }
  }

  /** A save trades the volume of the key's old rows for that of the new ones. */
  lemma VolumeAfterSave(log: seq<Row>, editor: seq<Reconcile.EditorRow>, k: SlotKey)
    ensures TotalVolume(Reconcile.Save(log, editor, k))
      == TotalVolume(log) - TotalVolume(Filter(log, OnKey(k)))
         + TotalVolume(Reconcile.Stamp(Filter(editor, Reconcile.Entered()), k))
  {
    var r := Reconcile.Save(log, editor, k);
    VolumeSplits(log, k);
    VolumeSplits(r, k);
  }

  lemma {:induction false} VolumeOfIdleRows(s: seq<Row>)
    requires forall r | r in s :: r.reps == 0
    ensures TotalVolume(s) == 0.0
  {
    if |s| > 0 {
      assert s[0] in s;
      VolumeOfIdleRows(s[1..]);
    }
  }

  /** A skip marker adds no volume. */
  lemma SkipAddsNoVolume(log: seq<Row>, k: SlotKey)
    ensures TotalVolume(Reconcile.AppendSkip(log, k)) == TotalVolume(log)
  {
    var skipped := Reconcile.AppendSkip(log, k);
    assert skipped == log + skipped[|log|..];
    VolumeConcat(log, skipped[|log|..]);
    VolumeOfIdleRows(skipped[|log|..]);
  }

  /** Missed-session markers add no volume. */
  lemma MissedAddsNoVolume(log: seq<Row>, cycle: int, week: int, session: Program.Session)
    ensures TotalVolume(Reconcile.AppendMissed(log, cycle, week, session)) == TotalVolume(log)
  {
    var missed := Reconcile.AppendMissed(log, cycle, week, session);
    var marks := missed[|log|..];
    assert missed == log + marks;
    forall r | r in marks
      ensures r.reps == 0
    {
      var i :| 0 <= i < |marks| && marks[i] == r;
      assert r == missed[|log| + i];
    }
    VolumeConcat(log, marks);
    VolumeOfIdleRows(marks);
  }

  lemma VolumeExample()
    ensures TotalVolume([Row(1, 1, "Push", "Bench", 1, 8, 60.0, ""), Row(1, 1, "Push", "Dips", 1, 12, 0.0, "")]) == 480.0
  {
    var log := [Row(1, 1, "Push", "Bench", 1, 8, 60.0, ""), Row(1, 1, "Push", "Dips", 1, 12, 0.0, "")];
    assert log[1..][1..] == [];
  }

  // ---------------------------------------------------------------- maxima

  function MaxReal(xs: seq<real>): (m: real)
    requires |xs| > 0
    ensures m in xs
    ensures forall x | x in xs :: x <= m
  {
    if |xs| == 1 then xs[0]
    else
      var rest := MaxReal(xs[1..]);
      assert forall x | x in xs :: x == xs[0] || x in xs[1..];
      if xs[0] >= rest then xs[0] else rest
  }

  function MaxInt(xs: seq<int>): (m: int)
    requires |xs| > 0
    ensures m in xs
    ensures forall x | x in xs :: x <= m
  {
    if |xs| == 1 then xs[0]
    else
      var rest := MaxInt(xs[1..]);
      assert forall x | x in xs :: x == xs[0] || x in xs[1..];
      if xs[0] >= rest then xs[0] else rest
  }

  // ---------------------------------------------------------------- podium

  function OneRM(r: Row): real
  {
    Estimator.OneRepMax(r.weight, r.reps)
  }

  /** The `1RM` column the podium adds to every lift, as a function of the row. */
  function Estimate(): Row -> real
  {
    (r: Row) => OneRM(r)
  }

  function ExerciseOf(r: Row): string
  {
    r.exercise
  }

  /** One line of the grouped frame: an exercise with its maximum 1RM,
      maximum load and maximum reps, each a maximum of its own. */
  datatype Standing = Standing(exercise: string, best: real, maxWeight: real, maxReps: int)

  /** `s` holds the maxima of the rows of its exercise, each attained by some
      row, with `est` giving the estimated 1RM of a row. */
  ghost predicate IsStanding(s: Standing, rows: seq<Row>, est: Row -> real)
  {
    && (exists r :: r in rows && r.exercise == s.exercise && est(r) == s.best)
    && (exists r :: r in rows && r.exercise == s.exercise && r.weight == s.maxWeight)
    && (exists r :: r in rows && r.exercise == s.exercise && r.reps == s.maxReps)
    && (forall r | r in rows && r.exercise == s.exercise ::
          est(r) <= s.best && r.weight <= s.maxWeight && r.reps <= s.maxReps)
  }

  /** `groupby("Exercice").agg(max)` for one exercise that has rows. */
  function Summarise(rows: seq<Row>, exercise: string, est: Row -> real): (s: Standing)
    requires exists r :: r in rows && r.exercise == exercise
    ensures s.exercise == exercise && IsStanding(s, rows, est)
  {
    var mine := Filter(rows, OfExercise(exercise));
    var r0 :| r0 in rows && r0.exercise == exercise;
    assert r0 in mine;
    var best := seq(|mine|, i requires 0 <= i < |mine| => est(mine[i]));
    var loads := seq(|mine|, i requires 0 <= i < |mine| => mine[i].weight);
    var reps := seq(|mine|, i requires 0 <= i < |mine| => mine[i].reps);
    var st := Standing(exercise, MaxReal(best), MaxReal(loads), MaxInt(reps));
    forall r | r in rows && r.exercise == exercise
      ensures est(r) <= st.best && r.weight <= st.maxWeight && r.reps <= st.maxReps
    {
      var i :| 0 <= i < |mine| && mine[i] == r;
      assert best[i] in best && loads[i] in loads && reps[i] in reps;
    }
    var i1 :| 0 <= i1 < |best| && best[i1] == st.best;
    assert mine[i1] in mine;
    var i2 :| 0 <= i2 < |loads| && loads[i2] == st.maxWeight;
    assert mine[i2] in mine;
    var i3 :| 0 <= i3 < |reps| && reps[i3] == st.maxReps;
    assert mine[i3] in mine;
    st
  }

  /** Rows with at least one rep, the only ones the podium looks at. */
  function Lifts(log: seq<Row>): (rows: seq<Row>)
    ensures forall r | r in rows :: r in log && r.reps > 0
    ensures forall r | r in log && r.reps > 0 :: r in rows
  {
    Filter(log, HasReps())
  }

  /** The summaries of the named exercises, one per name, in order. */
  function SummariseAll(rows: seq<Row>, names: seq<string>, est: Row -> real): (ss: seq<Standing>)
    requires forall n | n in names :: exists r :: r in rows && ExerciseOf(r) == n
    ensures |ss| == |names|
    ensures forall i :: 0 <= i < |ss| ==> ss[i].exercise == names[i] && IsStanding(ss[i], rows, est)
  {
    if |names| == 0 then []
    else
      assert names[0] in names;
      var r0 :| r0 in rows && ExerciseOf(r0) == names[0];
      assert r0.exercise == names[0];
      var head := Summarise(rows, names[0], est);
      assert forall n | n in names[1..] :: n in names;
      var tail := SummariseAll(rows, names[1..], est);
      var ss := [head] + tail;
      forall i | 0 <= i < |ss|
        ensures ss[i].exercise == names[i] && IsStanding(ss[i], rows, est)
      {
        if i > 0 {
          assert ss[i] == tail[i - 1];
        }
      }
      ss
  }

  /** One standing per exercise of `rows`, in order of first appearance. */
  function Group(rows: seq<Row>, est: Row -> real): (ss: seq<Standing>)
    ensures forall s | s in ss :: IsStanding(s, rows, est)
    ensures forall i, j :: 0 <= i < j < |ss| ==> ss[i].exercise != ss[j].exercise
  {
    var names := DistinctKeys(rows, ExerciseOf);
    var ss := SummariseAll(rows, names, est);
    GroupedStandings(rows, est, ss);
    ss
  }

  /** Every exercise of `rows` has its standing. */
  lemma GroupCovers(rows: seq<Row>, est: Row -> real, r: Row)
    requires r in rows
    ensures exists s :: s in Group(rows, est) && s.exercise == r.exercise
  {
    var names := DistinctKeys(rows, ExerciseOf);
    var ss := SummariseAll(rows, names, est);
    assert ss == Group(rows, est);
    assert ExerciseOf(r) in names;
    var i :| 0 <= i < |names| && names[i] == ExerciseOf(r);
    assert ss[i] in ss;
  }

  lemma GroupedStandings(rows: seq<Row>, est: Row -> real, ss: seq<Standing>)
    requires forall i :: 0 <= i < |ss| ==> IsStanding(ss[i], rows, est)
    ensures forall s | s in ss :: IsStanding(s, rows, est)
  {
    forall s | s in ss
      ensures IsStanding(s, rows, est)
    {
      var i :| 0 <= i < |ss| && ss[i] == s;
    }
  }

  predicate BestFirst(a: Standing, b: Standing)
  {
    a.best >= b.best
  }

  /** The first three standings by descending 1RM. */
  function TopThree(ss: seq<Standing>): (p: seq<Standing>)
    ensures |p| == if |ss| < 3 then |ss| else 3
    ensures multiset(p) <= multiset(ss)
  {
    var sorted := Sort(ss, BestFirst);
    var p := Take(sorted, 3);
    assert sorted == p + sorted[|p|..];
    p
  }

  /** The podium: the standings by descending 1RM, first three. */
  function Podium(log: seq<Row>): (p: seq<Standing>)
    ensures |p| <= 3
  {
    TopThree(Group(Lifts(log), Estimate()))
  }

  lemma BestFirstTotal()
    ensures TotalPreorder(BestFirst)
  {
  }

  lemma TopThreeDescending(ss: seq<Standing>)
    ensures forall i, j :: 0 <= i < j < |TopThree(ss)| ==> TopThree(ss)[i].best >= TopThree(ss)[j].best
  {
    var sorted := Sort(ss, BestFirst);
    BestFirstTotal();
    var p := Take(sorted, 3);
    forall i, j | 0 <= i < j < |p|
      ensures p[i].best >= p[j].best
    {
      assert BestFirst(sorted[i], sorted[j]);
    }
  }

  lemma TopThreeDistinct(ss: seq<Standing>)
    requires forall i, j :: 0 <= i < j < |ss| ==> ss[i].exercise != ss[j].exercise
    ensures forall i, j :: 0 <= i < j < |TopThree(ss)| ==> TopThree(ss)[i].exercise != TopThree(ss)[j].exercise
  {
    var sorted := Sort(ss, BestFirst);
    var p := Take(sorted, 3);
    forall i, j | 0 <= i < j < |p|
      ensures p[i].exercise != p[j].exercise
    {
      SortedDistinct(ss, sorted, i, j);
    }
  }

  lemma TopThreeMembers(ss: seq<Standing>)
    ensures forall s | s in TopThree(ss) :: s in ss
  {
    var sorted := Sort(ss, BestFirst);
    forall s | s in TopThree(ss)
      ensures s in ss
    {
      var i :| 0 <= i < |TopThree(ss)| && TopThree(ss)[i] == s;
      assert s == sorted[i];
      assert s in sorted;
    }
  }

  /** A standing left out of the top three is no better than the third. */
  lemma TopThreeCovers(ss: seq<Standing>, s: Standing)
    requires s in ss
    ensures s in TopThree(ss) || (|TopThree(ss)| == 3 && s.best <= TopThree(ss)[2].best)
  {
    var sorted := Sort(ss, BestFirst);
    BestFirstTotal();
    var p := Take(sorted, 3);
    StandingPlace(ss, sorted, s);
    var m :| 0 <= m < |sorted| && sorted[m] == s;
    if m < 3 {
      assert p[m] == s;
    } else {
      assert BestFirst(sorted[2], sorted[m]);
      assert p[2] == sorted[2];
    }
  }

  /** The podium holds distinct exercises, best estimated 1RM first, and
      each line carries true per-exercise maxima over the rows with reps. */
  lemma PodiumIsRanked(log: seq<Row>)
    ensures forall i, j :: 0 <= i < j < |Podium(log)| ==> Podium(log)[i].best >= Podium(log)[j].best
    ensures forall i, j :: 0 <= i < j < |Podium(log)| ==> Podium(log)[i].exercise != Podium(log)[j].exercise
    ensures forall s | s in Podium(log) :: IsStanding(s, Lifts(log), Estimate())
  {
    var ss := Group(Lifts(log), Estimate());
    TopThreeDescending(ss);
    TopThreeDistinct(ss);
    PodiumLinesAreStandings(log);
  }

  lemma PodiumLinesAreStandings(log: seq<Row>)
    ensures forall s | s in Podium(log) :: IsStanding(s, Lifts(log), Estimate())
  {
    TopThreeMembers(Group(Lifts(log), Estimate()));
  }

  /** Nothing better is left off: a row of an exercise missing from the top
      three of its grouping is no better than the third place. */
  lemma GroupTopThree(rows: seq<Row>, est: Row -> real, r: Row)
    requires r in rows
    ensures (exists s :: s in TopThree(Group(rows, est)) && s.exercise == r.exercise)
      || (|TopThree(Group(rows, est))| == 3 && est(r) <= TopThree(Group(rows, est))[2].best)
  {
    var ss := Group(rows, est);
    GroupCovers(rows, est, r);
    var s :| s in ss && s.exercise == r.exercise;
    assert IsStanding(s, rows, est);
    TopThreeCovers(ss, s);
  }

  /** Nothing better is left off the podium: a lift of an exercise missing
      from it is no better than the third place. */
  lemma PodiumIsTopThree(log: seq<Row>, r: Row)
    requires r in log && r.reps > 0
    ensures (exists s :: s in Podium(log) && s.exercise == r.exercise)
      || (|Podium(log)| == 3 && OneRM(r) <= Podium(log)[2].best)
  {
    var rows := Lifts(log);
    assert r in rows;
    GroupTopThree(rows, Estimate(), r);
    EstimateIsOneRM(r);
  }

  lemma EstimateIsOneRM(r: Row)
    ensures Estimate()(r) == OneRM(r)
  {
  }

  lemma StandingPlace(ss: seq<Standing>, sorted: seq<Standing>, s: Standing)
    requires multiset(sorted) == multiset(ss) && s in ss
    ensures exists m :: 0 <= m < |sorted| && sorted[m] == s
  {
    assert s in multiset(ss);
    assert s in sorted;
  }

  /** A permutation of standings with distinct exercises keeps them distinct. */
  lemma SortedDistinct(ss: seq<Standing>, sorted: seq<Standing>, i: int, j: int)
    requires forall a, b :: 0 <= a < b < |ss| ==> ss[a].exercise != ss[b].exercise
    requires multiset(sorted) == multiset(ss)
    requires 0 <= i < j < |sorted|
    ensures sorted[i].exercise != sorted[j].exercise
  {
    if sorted[i].exercise == sorted[j].exercise {
      assert sorted[i] in multiset(ss) && sorted[j] in multiset(ss);
      var a :| 0 <= a < |ss| && ss[a] == sorted[i];
      var b :| 0 <= b < |ss| && ss[b] == sorted[j];
      assert a == b;
      assert sorted[i] == sorted[j];
      CountTwo(sorted, i, j);
      CountAtMostOne(ss, sorted[i]);
    }
  }

  lemma CountTwo<T>(s: seq<T>, i: int, j: int)
    requires 0 <= i < j < |s| && s[i] == s[j]
    ensures multiset(s)[s[i]] >= 2
  {
    assert s == s[..j] + s[j..];
    assert s[i] in s[..j];
    assert s[j] in s[j..];
  }

  lemma {:induction false} CountAtMostOne(ss: seq<Standing>, x: Standing)
    requires forall a, b :: 0 <= a < b < |ss| ==> ss[a].exercise != ss[b].exercise
    ensures multiset(ss)[x] <= 1
  {
    if |ss| > 0 {
      CountAtMostOne(ss[1..], x);
      assert ss == [ss[0]] + ss[1..];
      if ss[0] == x {
        forall k | 0 <= k < |ss[1..]|
          ensures ss[1..][k] != x
        {
          assert ss[1..][k] == ss[k + 1];
        }
        assert x !in ss[1..];
      }
    }
  }

  /** The podium's load and reps need not come from one set: a log of an
      exercise done as 100 kg × 1 and 60 kg × 10 shows 100 kg with 10 reps. */
  lemma PodiumColumnsAreIndependent(log: seq<Row>, a: Row, b: Row)
    requires a in log && b in log && forall r | r in log :: r == a || r == b
    requires a.exercise == b.exercise
    requires a.weight == 100.0 && a.reps == 1 && b.weight == 60.0 && b.reps == 10
    ensures |Podium(log)| > 0
    ensures forall s | s in Podium(log) :: s.maxWeight == 100.0 && s.maxReps == 10
  {
    PodiumIsTopThree(log, a);
    var rows := Lifts(log);
    assert a in rows && b in rows;
    PodiumLinesAreStandings(log);
    forall s | s in Podium(log)
      ensures s.maxWeight == 100.0 && s.maxReps == 10
    {
      TopColumns(s, a, b, rows, Estimate());
    }
  }

  /** The standing of an exercise logged as exactly two rows. */
  lemma TopColumns(s: Standing, a: Row, b: Row, rows: seq<Row>, est: Row -> real)
    requires forall r | r in rows :: r == a || r == b
    requires a in rows && b in rows && a.exercise == b.exercise
    requires IsStanding(s, rows, est)
    ensures s.maxWeight == (if a.weight >= b.weight then a.weight else b.weight)
    ensures s.maxReps == (if a.reps >= b.reps then a.reps else b.reps)
  {
    var ra :| ra in rows && ra.exercise == s.exercise && ra.weight == s.maxWeight;
    var rb :| rb in rows && rb.exercise == s.exercise && rb.reps == s.maxReps;
  }

  // ---------------------------------------------------------------- record

  /** The first row with the lexicographically largest (Poids, Reps). */
  function BestOf(s: seq<Row>): (b: Row)
    requires |s| > 0
    ensures b in s
    ensures forall x | x in s :: !Outperforms(PerfOf(x), PerfOf(b))
    ensures exists i :: 0 <= i < |s| && s[i] == b && forall j :: 0 <= j < i ==> Outperforms(PerfOf(b), PerfOf(s[j]))
  {
    if |s| == 1 then
      s[0]
    else
      var rest := BestOf(s[1..]);
      assert forall x | x in s :: x == s[0] || x in s[1..];
      if Outperforms(PerfOf(rest), PerfOf(s[0])) then
        var k :| 0 <= k < |s[1..]| && s[1..][k] == rest
          && forall j :: 0 <= j < k ==> Outperforms(PerfOf(rest), PerfOf(s[1..][j]));
        assert s[k + 1] == rest;
        assert forall j :: 0 <= j < k + 1 ==> Outperforms(PerfOf(rest), PerfOf(s[j])) by {
          forall j | 0 <= j < k + 1
            ensures Outperforms(PerfOf(rest), PerfOf(s[j]))
          {
            if j > 0 {
              assert s[j] == s[1..][j - 1];
            }
          }
        }
        rest
      else
        forall x | x in s
          ensures !Outperforms(PerfOf(x), PerfOf(s[0]))
        {
          if x != s[0] {
            assert !Outperforms(PerfOf(x), PerfOf(rest));
            Rows.OutperformsStrictTotal(PerfOf(x), PerfOf(rest), PerfOf(s[0]));
          }
        }
        s[0]
  }

  function DoneOf(exercise: string): Row -> bool
  {
    (r: Row) => r.exercise == exercise && Done(r)
  }

  /** `df_rec`: the performed sets of one exercise, in log order. */
  function Performed(log: seq<Row>, exercise: string): (rows: seq<Row>)
    ensures forall r | r in rows :: r in log && r.exercise == exercise && Done(r)
    ensures forall r | r in log && r.exercise == exercise && Done(r) :: r in rows
  {
    Filter(log, DoneOf(exercise))
  }

  /** The record of an exercise, none when it has no performed set. */
  function Record(log: seq<Row>, exercise: string): (b: Option<Row>)
    ensures b.None? <==> forall r | r in log :: !(r.exercise == exercise && Done(r))
    ensures b.Some? ==> b.value in log && b.value.exercise == exercise && Done(b.value)
    ensures b.Some? ==> forall r | r in log && r.exercise == exercise && Done(r) ::
      !Outperforms(PerfOf(r), PerfOf(b.value))
  {
    var rows := Performed(log, exercise);
    if |rows| == 0 then None
    else
      assert rows[0] in rows;
      Some(BestOf(rows))
  }

  // ---------------------------------------------------------------- chart

  datatype Point = Point(period: Period, peak: real)

  ghost predicate IsPeak(rows: seq<Row>, p: Period, w: real)
  {
    (exists r :: r in rows && PeriodOf(r) == p && r.weight == w)
    && forall r | r in rows && PeriodOf(r) == p :: r.weight <= w
  }

  function PeakWeight(rows: seq<Row>, p: Period): (w: real)
    requires exists r :: r in rows && PeriodOf(r) == p
    ensures IsPeak(rows, p, w)
  {
    var at := Filter(rows, AtPeriod(p));
    var r0 :| r0 in rows && PeriodOf(r0) == p;
    assert r0 in at;
    var loads := seq(|at|, i requires 0 <= i < |at| => at[i].weight);
    var w := MaxReal(loads);
    forall r | r in rows && PeriodOf(r) == p
      ensures r.weight <= w
    {
      var i :| 0 <= i < |at| && at[i] == r;
      assert loads[i] in loads;
    }
    var k :| 0 <= k < |loads| && loads[k] == w;
    assert at[k] in at;
    w
  }

  function Reverse<T>(s: seq<T>): (r: seq<T>)
    ensures |r| == |s| && forall i :: 0 <= i < |s| ==> r[i] == s[|s| - 1 - i]
  {
    seq(|s|, i requires 0 <= i < |s| => s[|s| - 1 - i])
  }

  lemma ReverseKeepsMembers<T>(s: seq<T>)
    ensures forall x | x in Reverse(s) :: x in s
    ensures forall x | x in s :: x in Reverse(s)
  {
    var r := Reverse(s);
    forall x | x in r
      ensures x in s
    {
      var i :| 0 <= i < |r| && r[i] == x;
      assert s[|s| - 1 - i] == x;
    }
    forall x | x in s
      ensures x in r
    {
      var i :| 0 <= i < |s| && s[i] == x;
      assert r[|s| - 1 - i] == x;
    }
  }

  lemma ReverseAscends(desc: seq<Period>)
    requires History.NewestFirst(desc)
    ensures forall i, j :: 0 <= i < j < |Reverse(desc)| ==> Before(Reverse(desc)[i], Reverse(desc)[j])
  {
    var asc := Reverse(desc);
    forall i, j | 0 <= i < j < |asc|
      ensures Before(asc[i], asc[j])
    {
      assert asc[i] == desc[|desc| - 1 - i] && asc[j] == desc[|desc| - 1 - j];
    }
  }

  /** The distinct periods of `rows`, oldest first. */
  function AscendingPeriods(rows: seq<Row>): (ps: seq<Period>)
    ensures forall i, j :: 0 <= i < j < |ps| ==> Before(ps[i], ps[j])
    ensures forall p | p in ps :: exists r :: r in rows && PeriodOf(r) == p
    ensures forall r | r in rows :: PeriodOf(r) in ps
  {
    NewerOrSameTotalPreorder();
    var sorted := Sort(rows, NewerOrSame);
    var desc := History.DistinctPeriods(sorted);
    History.DistinctPeriodsDescending(sorted);
    ReverseAscends(desc);
    ReverseKeepsMembers(desc);
    Reverse(desc)
  }

  /** The progress chart: the heaviest load of each period with a performed set of the
      exercise, periods in ascending order. */
  function Chart(log: seq<Row>, exercise: string): (pts: seq<Point>)
    ensures forall i, j :: 0 <= i < j < |pts| ==> Before(pts[i].period, pts[j].period)
    ensures forall pt | pt in pts :: IsPeak(Performed(log, exercise), pt.period, pt.peak)
    ensures forall r | r in log && r.exercise == exercise && Done(r) ::
      exists pt :: pt in pts && pt.period == PeriodOf(r)
  {
    var rows := Performed(log, exercise);
    var asc := AscendingPeriods(rows);
    var pts := Peaks(rows, asc);
    PeaksAscend(asc, pts);
    ChartCovers(rows, asc, pts);
    pts
  }

  /** One point per period, with the heaviest load of that period. */
  function Peaks(rows: seq<Row>, ps: seq<Period>): (pts: seq<Point>)
    requires forall p | p in ps :: exists r :: r in rows && PeriodOf(r) == p
    ensures |pts| == |ps|
    ensures forall i :: 0 <= i < |ps| ==> pts[i].period == ps[i]
    ensures forall pt | pt in pts :: IsPeak(rows, pt.period, pt.peak)
  {
    if |ps| == 0 then []
    else
      assert ps[0] in ps;
      assert forall p | p in ps[1..] :: p in ps;
      var tail := Peaks(rows, ps[1..]);
      var pts := [Point(ps[0], PeakWeight(rows, ps[0]))] + tail;
      forall i | 0 <= i < |ps|
        ensures pts[i].period == ps[i]
      {
        if i > 0 {
          assert pts[i] == tail[i - 1];
        }
      }
      assert forall pt | pt in pts :: pt == pts[0] || pt in tail;
      pts
  }

  /** Ascending periods carry over to their points. */
  lemma PeaksAscend(ps: seq<Period>, pts: seq<Point>)
    requires forall i, j :: 0 <= i < j < |ps| ==> Before(ps[i], ps[j])
    requires |pts| == |ps| && forall i :: 0 <= i < |ps| ==> pts[i].period == ps[i]
    ensures forall i, j :: 0 <= i < j < |pts| ==> Before(pts[i].period, pts[j].period)
  {
  }

  lemma ChartCovers(rows: seq<Row>, ps: seq<Period>, pts: seq<Point>)
    requires forall r | r in rows :: PeriodOf(r) in ps
    requires |pts| == |ps| && forall i :: 0 <= i < |ps| ==> pts[i].period == ps[i]
    ensures forall r | r in rows :: exists pt :: pt in pts && pt.period == PeriodOf(r)
  {
    forall r | r in rows
      ensures exists pt :: pt in pts && pt.period == PeriodOf(r)
    {
      var m :| 0 <= m < |ps| && ps[m] == PeriodOf(r);
      assert pts[m] in pts;
    }
  }

  // ---------------------------------------------------------------- header

  /** The cycle preselected in the session header — the highest
      cycle in the log, or 1 for an empty log. */
  function DefaultCycle(log: seq<Row>): (c: int)
    ensures |log| == 0 ==> c == 1
    ensures |log| > 0 ==> (exists r :: r in log && r.cycle == c) && forall r | r in log :: r.cycle <= c
  {
    if |log| == 0 then 1
    else
      var cycles := seq(|log|, i requires 0 <= i < |log| => log[i].cycle);
      var c := MaxInt(cycles);
      forall r | r in log
        ensures r.cycle <= c
      {
        var i :| 0 <= i < |log| && log[i] == r;
        assert cycles[i] in cycles;
      }
      var k :| 0 <= k < |cycles| && cycles[k] == c;
      assert log[k] in log;
      c
  }
}

=== FILE: coercion.dfy ===
/** Load-time coercion of history cells (`get_hist`): every numeric column goes
    through `to_numeric(errors='coerce')`, missing values are filled with a
    per-column default, and integer columns are cast with `astype(int)`. */
module Coercion {
  import opened Rows

  /** A raw spreadsheet cell: a number, some text, or nothing at all. */
  datatype Cell = Number(value: real) | Text(text: string) | Blank

  /** A sheet record before coercion; text columns are taken as they are. */
  datatype RawRow = RawRow(
    cycle: Cell,
    week: Cell,
    session: string,
    exercise: string,
    setNo: int,
    reps: Cell,
    weight: Cell,
    note: string)

  predicate IsDigit(c: char)
  {
    '0' <= c <= '9'
  }

  predicate AllDigits(s: string)
  {
    forall i :: 0 <= i < |s| ==> IsDigit(s[i])
  }

  function DigitValue(c: char): nat
    requires IsDigit(c)
  {
    (c as int) - ('0' as int)
  }

  /** The value of a decimal digit string, most significant digit first. */
  function DigitsValue(s: string): nat
    requires AllDigits(s)
  {
    if |s| == 0 then 0 else 10 * DigitsValue(s[..|s| - 1]) + DigitValue(s[|s| - 1])
  }

  function Pow10(n: nat): (p: nat)
    ensures p >= 1
  {
    if n == 0 then 1 else 10 * Pow10(n - 1)
  }

  /** Index of the first '.' in `s`, if any. */
  function DotIndex(s: string): (r: Option<nat>)
    ensures r.None? ==> forall i :: 0 <= i < |s| ==> s[i] != '.'
    ensures r.Some? ==>
      (r.value < |s| && s[r.value] == '.' && forall i :: 0 <= i < r.value ==> s[i] != '.')
  {
    if |s| == 0 then None
    else if s[0] == '.' then Some(0)
    else match DotIndex(s[1..])
      case None => None
      case Some(k) => Some(k + 1)
  }

  /** An unsigned decimal: digits, optionally a point and more digits, with
      at least one digit in all. */
  function ParseUnsigned(s: string): (r: Option<real>)
    ensures r.Some? ==> r.value >= 0.0
    ensures r.Some? ==> forall i :: 0 <= i < |s| ==> IsDigit(s[i]) || s[i] == '.'
    ensures r.Some? ==> forall i, j :: 0 <= i < j < |s| && s[i] == '.' ==> s[j] != '.'
  {
    match DotIndex(s)
    case None =>
      if |s| > 0 && AllDigits(s) then Some(DigitsValue(s) as real) else None
    case Some(k) =>
      var whole, frac := s[..k], s[k + 1..];
      if |s| > 1 && AllDigits(whole) && AllDigits(frac) then
        assert forall i :: 0 <= i < |s| ==> IsDigit(s[i]) || s[i] == '.' by {
          forall i | 0 <= i < |s|
            ensures IsDigit(s[i]) || s[i] == '.'
          {
            if i < k {
              assert s[i] == whole[i];
            } else if i > k {
              assert s[i] == frac[i - k - 1];
            }
          }
        }
        var fraction := (DigitsValue(frac) as real) / (Pow10(|frac|) as real);
        assert fraction >= 0.0 by { NonNegativeQuotient(DigitsValue(frac) as real, Pow10(|frac|) as real); }
        Some(DigitsValue(whole) as real + fraction)
      else None
  }

  lemma NonNegativeQuotient(x: real, y: real)
    requires x >= 0.0 && y > 0.0
    ensures x / y >= 0.0
  {
  }

  /** The textual numbers `to_numeric` is modelled as accepting: an optional
      sign followed by an unsigned decimal. */
  function ParseNumber(s: string): (r: Option<real>)
    ensures r.Some? ==> |s| > 0 && exists i :: 0 <= i < |s| && IsDigit(s[i])
    ensures r.Some? ==> forall i :: 0 <= i < |s| ==> NumberChar(s, i)
    ensures r.Some? ==> forall i, j :: 0 <= i < j < |s| && s[i] == '.' ==> s[j] != '.'
    ensures r.Some? && s[0] == '-' ==> r.value <= 0.0
    ensures r.Some? && s[0] != '-' ==> r.value >= 0.0
  {
    if |s| > 0 && s[0] == '-' then
      match ParseUnsigned(s[1..])
      case None => None
      case Some(v) => ParseDigitWitness(s[1..]); Some(-v)
    else if |s| > 0 && s[0] == '+' then
      match ParseUnsigned(s[1..])
      case None => None
      case Some(v) => ParseDigitWitness(s[1..]); Some(v)
    else
      match ParseUnsigned(s)
      case None => None
      case Some(v) => ParseDigitWitness(s); Some(v)
  }

  /** The characters a number may be written with: digits, a point, and a
      sign in front. */
  predicate NumberChar(s: string, i: nat)
    requires i < |s|
  {
    IsDigit(s[i]) || s[i] == '.' || (i == 0 && (s[i] == '-' || s[i] == '+'))
  }

  lemma ParseDigitWitness(s: string)
    requires ParseUnsigned(s).Some?
    ensures exists i :: 0 <= i < |s| && IsDigit(s[i])
  {
    match DotIndex(s)
    case None =>
      assert IsDigit(s[0]);
    case Some(k) =>
      if k > 0 {
        assert IsDigit(s[..k][0]);
        assert IsDigit(s[0]);
      } else {
        assert IsDigit(s[k + 1..][0]);
        assert IsDigit(s[k + 1]);
      }
  }

  /** `pd.to_numeric(cell, errors='coerce')`, with NaN as `None`. */
  function ToNumeric(c: Cell): (v: Option<real>)
    ensures c.Blank? ==> v.None?
    ensures c.Number? ==> v == Some(c.value)
    ensures c.Text? ==> v == ParseNumber(c.text)
    ensures c.Text? && v.Some? ==> |c.text| > 0 && forall i :: 0 <= i < |c.text| ==> NumberChar(c.text, i)
    ensures c.Text? && v.Some? ==> exists i :: 0 <= i < |c.text| && IsDigit(c.text[i])
    ensures c.Text? && v.Some? ==> forall i, j :: 0 <= i < j < |c.text| && c.text[i] == '.' ==> c.text[j] != '.'
  {
    match c
    case Number(v) => Some(v)
    case Text(s) => ParseNumber(s)
    case Blank => None
  }

  /** `astype(int)` on a float: truncation toward zero. */
  function TruncToZero(v: real): (n: int)
    ensures v >= 0.0 ==> 0 <= n && n as real <= v < n as real + 1.0
    ensures v < 0.0 ==> n <= 0 && n as real - 1.0 < v <= n as real
  {
    if v >= 0.0 then v.Floor else -((-v).Floor)
  }

  /** A float column: `.fillna(fallback).astype(float)`. */
  function CoerceReal(c: Cell, fallback: real): (x: real)
    ensures ToNumeric(c).None? ==> x == fallback
    ensures ToNumeric(c).Some? ==> x == ToNumeric(c).value
  {
    match ToNumeric(c)
    case None => fallback
    case Some(v) => v
  }

  /** An integer column: `.fillna(fallback).astype(int)`. */
  function CoerceInt(c: Cell, fallback: int): (n: int)
    ensures ToNumeric(c).None? ==> n == fallback
    ensures ToNumeric(c).Some? ==>
      (var v := ToNumeric(c).value;
       (v >= 0.0 ==> n as real <= v < n as real + 1.0) && (v < 0.0 ==> n as real - 1.0 < v <= n as real))
  {
    match ToNumeric(c)
    case None => fallback
    case Some(v) => TruncToZero(v)
  }

  const WeightDefault: real := 0.0
  const RepsDefault: int := 0
  const WeekDefault: int := 1
  const CycleDefault: int := 1

  /** One sheet record as the rest of the app sees it. */
  function LoadRow(raw: RawRow): (r: Row)
    ensures ToNumeric(raw.weight).None? ==> r.weight == 0.0
    ensures ToNumeric(raw.reps).None? ==> r.reps == 0
    ensures ToNumeric(raw.week).None? ==> r.week == 1
    ensures ToNumeric(raw.cycle).None? ==> r.cycle == 1
    ensures ToNumeric(raw.weight).Some? ==> r.weight == ToNumeric(raw.weight).value
    ensures ToNumeric(raw.reps).Some? ==> r.reps == TruncToZero(ToNumeric(raw.reps).value)
    ensures ToNumeric(raw.week).Some? ==> r.week == TruncToZero(ToNumeric(raw.week).value)
    ensures ToNumeric(raw.cycle).Some? ==> r.cycle == TruncToZero(ToNumeric(raw.cycle).value)
    ensures r.session == raw.session && r.exercise == raw.exercise
      && r.setNo == raw.setNo && r.note == raw.note
  {
    Row(
      CoerceInt(raw.cycle, CycleDefault),
      CoerceInt(raw.week, WeekDefault),
      raw.session,
      raw.exercise,
      raw.setNo,
      CoerceInt(raw.reps, RepsDefault),
      CoerceReal(raw.weight, WeightDefault),
      raw.note)
  }

  /** The whole sheet; an empty sheet loads as an empty log. */
  function LoadLog(raw: seq<RawRow>): (log: seq<Row>)
    ensures |log| == |raw|
    ensures forall i :: 0 <= i < |raw| ==> log[i] == LoadRow(raw[i])
  {
    seq(|raw|, i requires 0 <= i < |raw| => LoadRow(raw[i]))
  }

  /** Integral values survive the integer coercion unchanged. */
  lemma IntegralPassesThrough(n: int, fallback: int)
    ensures CoerceInt(Number(n as real), fallback) == n
  {
  }

  /** Coercing an already coerced value changes nothing. */
  lemma CoerceIntIdempotent(c: Cell, fallback: int)
    ensures CoerceInt(Number(CoerceInt(c, fallback) as real), fallback) == CoerceInt(c, fallback)
  {
  }

  /** Decimal rendering of a natural number, most significant digit first. */
  function ShowNat(n: nat): (s: string)
    ensures |s| > 0 && AllDigits(s)
  {
    if n < 10 then [('0' as int + n) as char]
    else ShowNat(n / 10) + [('0' as int + n % 10) as char]
  }

  function ShowInt(n: int): string
  {
    if n < 0 then "-" + ShowNat(-n) else ShowNat(n)
  }

  lemma {:induction false} DigitsOfShowNat(n: nat)
    ensures DigitsValue(ShowNat(n)) == n
  {
    if n >= 10 {
      DigitsOfShowNat(n / 10);
      var s := ShowNat(n);
      assert s[..|s| - 1] == ShowNat(n / 10);
    }
  }

  lemma {:induction false} ShowNatHasNoDot(n: nat)
    ensures DotIndex(ShowNat(n)).None?
  {
  }

  /** Any whole number written out in decimal is read back as itself, so an
      integer cell typed as text loads exactly like the number. */
  lemma ParseShowInt(n: int)
    ensures ParseNumber(ShowInt(n)) == Some(n as real)
    ensures CoerceInt(Text(ShowInt(n)), 0) == n
  {
    if n < 0 {
      DigitsOfShowNat(-n);
      ShowNatHasNoDot(-n);
      assert ShowInt(n)[1..] == ShowNat(-n);
    } else {
      DigitsOfShowNat(n);
      ShowNatHasNoDot(n);
      assert ShowNat(n)[0] != '-' && ShowNat(n)[0] != '+' by {
        assert IsDigit(ShowNat(n)[0]);
      }
    }
  }

  /** Digits, a point and digits are read as the whole part plus the
      fraction scaled by the number of fractional digits. */
  lemma ParseSplit(s: string, k: nat)
    requires 0 < k < |s| && s[k] == '.'
    requires AllDigits(s[..k]) && AllDigits(s[k + 1..])
    ensures ParseUnsigned(s)
      == Some(DigitsValue(s[..k]) as real + (DigitsValue(s[k + 1..]) as real) / (Pow10(|s| - k - 1) as real))
  {
    forall i | 0 <= i < k
      ensures s[i] != '.'
    {
      assert IsDigit(s[..k][i]);
    }
    DotAt(s, k);
  }

  /** A whole part, a point and a fractional part written out in decimal
      are read back as that decimal number. */
  lemma ParseDecimal(a: nat, b: nat)
    ensures ParseNumber(ShowNat(a) + "." + ShowNat(b))
      == Some(a as real + (b as real) / (Pow10(|ShowNat(b)|) as real))
  {
    var w, f := ShowNat(a), ShowNat(b);
    var s := w + "." + f;
    assert s[..|w|] == w;
    assert s[|w| + 1..] == f;
    assert s[0] == w[0];
    Unsigned(s);
    ParseSplit(s, |w|);
    DigitsOfShowNat(a);
    DigitsOfShowNat(b);
  }

  /** A signed decimal is read as the decimal with that sign. */
  lemma ParseSignedDecimal(a: nat, b: nat)
    ensures ParseNumber("-" + (ShowNat(a) + "." + ShowNat(b)))
      == Some(-(a as real + (b as real) / (Pow10(|ShowNat(b)|) as real)))
    ensures ParseNumber("+" + (ShowNat(a) + "." + ShowNat(b)))
      == Some(a as real + (b as real) / (Pow10(|ShowNat(b)|) as real))
  {
    var u := ShowNat(a) + "." + ShowNat(b);
    ParseDecimal(a, b);
    Unsigned(u);
    assert ("-" + u)[1..] == u;
    assert ("+" + u)[1..] == u;
  }

  /** Text starting with a digit carries no sign. */
  lemma Unsigned(s: string)
    requires |s| > 0 && IsDigit(s[0])
    ensures ParseNumber(s) == ParseUnsigned(s)
  {
  }

  /** A point preceded by no other point is where `DotIndex` stops. */
  lemma DotAt(s: string, k: nat)
    requires k < |s| && s[k] == '.'
    requires forall i :: 0 <= i < k ==> s[i] != '.'
    ensures DotIndex(s) == Some(k)
  {
  }

  /** "62.5" is read with its fraction: a load of 62.5 kg stays 62.5 kg. */
  lemma FractionKept()
    ensures CoerceReal(Text("62.5"), WeightDefault) == 62.5
  {
    ParseDecimal(62, 5);
    assert ShowNat(62) + "." + ShowNat(5) == "62.5";
  }

  /** A lone point, or two points, are not numbers. */
  lemma MalformedPointsFallBack()
    ensures ToNumeric(Text(".")).None?
    ensures ToNumeric(Text("1.2.3")).None?
  {
    var t := "1.2.3";
    assert t[1] == '.' && t[3] == '.';
  }

  /** A European decimal comma such as "3,5" is not a number: it falls back. */
  lemma CommaFallsBack()
    ensures CoerceReal(Text("3,5"), WeightDefault) == 0.0
    ensures CoerceInt(Text(""), WeekDefault) == 1
  {
    assert !IsDigit("3,5"[1]);
    assert !AllDigits("3,5");
  }
}

=== FILE: comparator.dfy ===
/** Colouring of the sets of the current session against the previous session
    (`style_comparaison`). A styled row has four cells — Série, Reps, Poids,
    Remarque — and only Reps and Poids are ever coloured. */
module Comparator {
  import opened Rows
  import opened Seqs
  import Estimator

  datatype Signal = Improved | Regressed | Unchanged | NoBaseline

  /** A cell style: none, the green "better" style or the red "worse" style. */
  datatype Style = Unstyled | Green | Red

  /** The weight-then-reps comparison of one set against its baseline. */
  function Classify(cur: Perf, prev: Perf): (s: Signal)
    ensures s != NoBaseline
    ensures s == Improved <==> Outperforms(cur, prev)
    ensures s == Regressed <==> Outperforms(prev, cur)
    ensures s == Unchanged <==> cur == prev
  {
    var cw, cr, pw, pr := cur.weight, cur.reps, prev.weight, prev.reps;
    if cw > pw || (cw == pw && cr > pr) then Improved
    else if cw < pw || (cw == pw && cr < pr) then Regressed
    else Unchanged
  }

  /** Exchanging the two performances exchanges improvement and regression. */
  lemma ClassifySwap(a: Perf, b: Perf)
    ensures Classify(a, b) == Improved <==> Classify(b, a) == Regressed
    ensures Classify(a, b) == Unchanged <==> Classify(b, a) == Unchanged
  {
  }

  function SameSet(setNo: int): Row -> bool
  {
    (r: Row) => r.setNo == setNo
  }

  /** The signal for one current row: compared with the first baseline row
      that has the same Série, or no baseline at all. */
  function Judge(row: Row, prev: seq<Row>): (s: Signal)
    ensures s == NoBaseline <==> forall i :: 0 <= i < |prev| ==> prev[i].setNo != row.setNo
    ensures s != NoBaseline ==>
      exists i :: 0 <= i < |prev| && prev[i].setNo == row.setNo
        && (forall j :: 0 <= j < i ==> prev[j].setNo != row.setNo)
        && s == Classify(PerfOf(row), PerfOf(prev[i]))
  {
    if |prev| == 0 then NoBaseline
    else
      var matching := Filter(prev, SameSet(row.setNo));
      FirstMatch(prev, row.setNo);
      if |matching| == 0 then NoBaseline
      else Classify(PerfOf(row), PerfOf(matching[0]))
  }

  /** The first row of a Série selection is the first row of `prev` with that Série. */
  lemma {:induction false} FirstMatch(prev: seq<Row>, setNo: int)
    ensures |Filter(prev, SameSet(setNo))| == 0 <==> forall i :: 0 <= i < |prev| ==> prev[i].setNo != setNo
    ensures |Filter(prev, SameSet(setNo))| > 0 ==>
      exists i :: 0 <= i < |prev| && prev[i].setNo == setNo
        && (forall j :: 0 <= j < i ==> prev[j].setNo != setNo)
        && Filter(prev, SameSet(setNo))[0] == prev[i]
  {
    if |prev| > 0 {
      FirstMatch(prev[1..], setNo);
      if prev[0].setNo != setNo {
        if |Filter(prev, SameSet(setNo))| > 0 {
          var i :| 0 <= i < |prev[1..]| && prev[1..][i].setNo == setNo
            && (forall j :: 0 <= j < i ==> prev[1..][j].setNo != setNo)
            && Filter(prev[1..], SameSet(setNo))[0] == prev[1..][i];
          assert prev[i + 1] == prev[1..][i];
          assert forall j :: 0 <= j < i + 1 ==> prev[j].setNo != setNo by {
            forall j | 0 <= j < i + 1
              ensures prev[j].setNo != setNo
            {
              if j > 0 {
                assert prev[j] == prev[1..][j - 1];
              }
            }
          }
        } else {
          forall i | 0 <= i < |prev|
            ensures prev[i].setNo != setNo
          {
            if i > 0 {
              assert prev[i] == prev[1..][i - 1];
            }
          }
        }
      }
    }
  }

  /** The styles of one displayed row; `prev` empty stands for both a missing
      and an empty previous-session frame. */
  function StyleComparison(row: Row, prev: seq<Row>): (colors: seq<Style>)
    ensures |colors| == 4
    ensures colors[0] == Unstyled && colors[3] == Unstyled && colors[1] == colors[2]
    ensures colors[1] == Green <==> Judge(row, prev) == Improved
    ensures colors[1] == Red <==> Judge(row, prev) == Regressed
  {
    var paint := match Judge(row, prev)
      case Improved => Green
      case Regressed => Red
      case _ => Unstyled;
    [Unstyled, paint, paint, Unstyled]
  }

  /** With no previous session nothing is coloured. */
  lemma NoHistoryNoColour(row: Row)
    ensures StyleComparison(row, []) == [Unstyled, Unstyled, Unstyled, Unstyled]
  {
  }

  /** The raw load decides even against the estimated 1RM: 80 kg × 12 after
      85 kg × 6 is a regression although its estimate is higher. */
  lemma LighterMoreRepsRegresses()
    ensures Estimator.OneRepMax(80.0, 12) > Estimator.OneRepMax(85.0, 6)
    ensures Classify(Perf(80.0, 12), Perf(85.0, 6)) == Regressed
  {
  }

  /** Heavier with fewer reps (80 × 8 then 85 × 6) counts as an improvement:
      the raw weight decides, not the estimated 1RM. */
  lemma HeavierFewerRepsImproves()
    ensures Classify(Perf(85.0, 6), Perf(80.0, 8)) == Improved
  {
  }
}

=== FILE: estimator.dfy ===
/** One-rep-max estimation (`calc_1rm`): the Epley form
    weight × (1 + reps / 30), and zero when no rep was done. */
module Estimator {

  function OneRepMax(weight: real, reps: int): (e: real)
    ensures reps <= 0 ==> e == 0.0
    ensures reps > 0 ==> 30.0 * e == weight * (30.0 + reps as real)
    ensures reps > 0 && weight >= 0.0 ==> e >= weight
  {
    if reps <= 0 then 0.0 else weight * (1.0 + (reps as real) / 30.0)
  }

  lemma NonNegativeProduct(x: real, y: real)
    requires x >= 0.0 && y >= 0.0
    ensures x * y >= 0.0
  {
  }

  /** For a non-negative load, more reps never lower the estimate. */
  lemma MonotoneInReps(weight: real, r1: int, r2: int)
    requires weight >= 0.0 && r1 <= r2
    ensures OneRepMax(weight, r1) <= OneRepMax(weight, r2)
  {
    if r1 > 0 {
      assert 30.0 * OneRepMax(weight, r2) - 30.0 * OneRepMax(weight, r1)
          == weight * ((r2 - r1) as real);
      NonNegativeProduct(weight, (r2 - r1) as real);
    }
  }

  /** For any fixed rep count, a heavier load never lowers the estimate. */
  lemma MonotoneInWeight(w1: real, w2: real, reps: int)
    requires w1 <= w2
    ensures OneRepMax(w1, reps) <= OneRepMax(w2, reps)
  {
    if reps > 0 {
      assert 30.0 * OneRepMax(w2, reps) - 30.0 * OneRepMax(w1, reps)
          == (w2 - w1) * (30.0 + reps as real);
      NonNegativeProduct(w2 - w1, 30.0 + reps as real);
    }
  }

  /** A single rep is not taken as the 1RM itself: with a positive load the
      estimate is 31/30 of the load. */
  lemma SingleRepIsInflated(weight: real)
    requires weight > 0.0
    ensures OneRepMax(weight, 1) == weight * 31.0 / 30.0
    ensures OneRepMax(weight, 1) > weight
  {
  }

  lemma FiveRepsAtHundred()
    ensures OneRepMax(100.0, 5) == 350.0 / 3.0
  {
  }
}

=== FILE: history.dfy ===
/** The history shown beside an exercise of the session being logged: the
    week alias, the strictly-older rows of the same exercise and session,
    the last two periods, the baseline period the comparison uses, and the
    rows already logged for the current period. */
module History {
  import opened Rows
  import opened Seqs

  /** The "Semaine" widget ranges over 1..10; week 10 is stored as 0. */
  function StoreWeek(entered: int): (w: int)
    ensures 1 <= entered <= 10 ==> 0 <= w <= 9 && EnteredWeek(w) == entered
  {
    if entered == 10 then 0 else entered
  }

  /** The week a stored week was entered as. */
  function EnteredWeek(stored: int): (e: int)
    ensures 0 <= stored <= 9 ==> 1 <= e <= 10
  {
    if stored == 0 then 10 else stored
  }

  /** Every stored week 0..9 comes from exactly one entered week. */
  lemma StoreWeekBijective(stored: int)
    requires 0 <= stored <= 9
    ensures StoreWeek(EnteredWeek(stored)) == stored
  {
  }

  /** A consequence of the alias: within one cycle, week 10 orders before week 1. */
  lemma Week10PrecedesWeek1(cycle: int)
    ensures Before(Period(cycle, StoreWeek(10)), Period(cycle, StoreWeek(1)))
    ensures !Before(Period(cycle, StoreWeek(9)), Period(cycle, StoreWeek(10)))
  {
  }

  ghost predicate OlderOfSlot(r: Row, exercise: string, session: string, target: Period)
  {
    r.exercise == exercise && r.session == session && Before(PeriodOf(r), target)
  }

  /** `h_only`: the rows of this exercise and session strictly older than the
      target period, most recent period first, log order kept within a period. */
  function Older(log: seq<Row>, exercise: string, session: string, target: Period): (h: seq<Row>)
    ensures forall r | r in h :: r in log && OlderOfSlot(r, exercise, session, target)
    ensures forall r | r in log && OlderOfSlot(r, exercise, session, target) :: r in h
    ensures SortedBy(h, NewerOrSame)
    ensures multiset(h) == multiset(Filter(Filter(log, OfSlot(exercise, session)), OlderThan(target)))
  {
    NewerOrSameTotalPreorder();
    var slot := Filter(log, OfSlot(exercise, session));
    Sort(Filter(slot, OlderThan(target)), NewerOrSame)
  }

  /** Strictly decreasing periods, the newest first. */
  ghost predicate NewestFirst(ps: seq<Period>)
  {
    forall i, j :: 0 <= i < j < |ps| ==> Before(ps[j], ps[i])
  }

  /** Periods in order of first appearance (`drop_duplicates`). */
  function DistinctPeriods(s: seq<Row>): (ps: seq<Period>)
    ensures forall p | p in ps :: exists r :: r in s && PeriodOf(r) == p
    ensures forall r | r in s :: PeriodOf(r) in ps
    ensures |s| > 0 ==> |ps| > 0 && ps[0] == PeriodOf(s[0])
    ensures forall i, j :: 0 <= i < j < |ps| ==> ps[i] != ps[j]
  {
    DistinctKeys(s, PeriodOf)
  }

  /** Over rows sorted newest first, the distinct periods strictly decrease,
      so in particular none repeats. */
  lemma {:induction false} DistinctPeriodsDescending(s: seq<Row>)
    requires SortedBy(s, NewerOrSame)
    ensures NewestFirst(DistinctPeriods(s))
    decreases |s|
  {
    if |s| > 0 {
      var p := PeriodOf(s[0]);
      var rest := Filter(s[1..], KeyDiffers(PeriodOf, p));
      assert SortedBy(s[1..], NewerOrSame);
      FilterSorted(s[1..], KeyDiffers(PeriodOf, p), NewerOrSame);
      DistinctPeriodsDescending(rest);
      LaterPeriodsAreOlder(s, rest);
      PrependNewest(p, DistinctPeriods(rest));
    }
  }

  lemma LaterPeriodsAreOlder(s: seq<Row>, rest: seq<Row>)
    requires SortedBy(s, NewerOrSame) && |s| > 0
    requires rest == Filter(s[1..], KeyDiffers(PeriodOf, PeriodOf(s[0])))
    ensures forall q | q in DistinctPeriods(rest) :: Before(q, PeriodOf(s[0]))
  {
    forall q | q in DistinctPeriods(rest)
      ensures Before(q, PeriodOf(s[0]))
    {
      var r :| r in rest && PeriodOf(r) == q;
      assert r in s[1..] && KeyDiffers(PeriodOf, PeriodOf(s[0]))(r);
      OlderThanHead(s, r);
    }
  }

  /** In rows sorted newest first, a later row of another period is older. */
  lemma OlderThanHead(s: seq<Row>, r: Row)
    requires SortedBy(s, NewerOrSame) && |s| > 0
    requires r in s[1..] && PeriodOf(r) != PeriodOf(s[0])
    ensures Before(PeriodOf(r), PeriodOf(s[0]))
  {
    var k :| 0 <= k < |s[1..]| && s[1..][k] == r;
    assert s[k + 1] == r;
    assert NewerOrSame(s[0], s[k + 1]);
  }

  lemma PrependNewest(p: Period, tail: seq<Period>)
    requires NewestFirst(tail)
    requires forall q | q in tail :: Before(q, p)
    ensures NewestFirst([p] + tail)
  {
    var ps := [p] + tail;
    forall i, j | 0 <= i < j < |ps|
      ensures Before(ps[j], ps[i])
    {
      assert ps[j] == tail[j - 1];
      if i == 0 {
        assert tail[j - 1] in tail;
      } else {
        assert ps[i] == tail[i - 1];
      }
    }
  }

  /** `last_s`: the (at most) two most recent earlier periods of this exercise
      and session, newest first. */
  function RecentPeriods(log: seq<Row>, exercise: string, session: string, target: Period): (ps: seq<Period>)
    ensures |ps| <= 2
  {
    Take(DistinctPeriods(Older(log, exercise, session, target)), 2)
  }

  /** The recent periods are strictly decreasing, newest first. */
  lemma RecentPeriodsDescend(log: seq<Row>, exercise: string, session: string, target: Period)
    ensures NewestFirst(RecentPeriods(log, exercise, session, target))
  {
    var h := Older(log, exercise, session, target);
    DistinctPeriodsDescending(h);
  }

  /** Each recent period is an earlier period with data for the slot. */
  lemma RecentPeriodsHaveData(log: seq<Row>, exercise: string, session: string, target: Period, p: Period)
    requires p in RecentPeriods(log, exercise, session, target)
    ensures exists r :: r in log && OlderOfSlot(r, exercise, session, target) && PeriodOf(r) == p
  {
    var h := Older(log, exercise, session, target);
    var all := DistinctPeriods(h);
    var i :| 0 <= i < |Take(all, 2)| && Take(all, 2)[i] == p;
    assert all[i] in all;
    var r :| r in h && PeriodOf(r) == p;
  }

  /** Every other earlier period with data is older than both recent periods. */
  lemma RecentPeriodsAreNewest(log: seq<Row>, exercise: string, session: string, target: Period, r: Row)
    requires r in log && OlderOfSlot(r, exercise, session, target)
    ensures PeriodOf(r) in RecentPeriods(log, exercise, session, target)
      || (|RecentPeriods(log, exercise, session, target)| == 2
          && Before(PeriodOf(r), RecentPeriods(log, exercise, session, target)[1]))
  {
    var h := Older(log, exercise, session, target);
    var all := DistinctPeriods(h);
    DistinctPeriodsDescending(h);
    var ps := Take(all, 2);
    assert PeriodOf(r) in all;
    var m :| 0 <= m < |all| && all[m] == PeriodOf(r);
    if m >= 2 {
      assert Before(all[m], all[1]);
      assert ps[1] == all[1];
    } else {
      assert ps[m] == all[m];
    }
  }

  /** The period compared against: the most recent earlier period with data
      for this exercise and session, if any. */
  function Baseline(log: seq<Row>, exercise: string, session: string, target: Period): (b: Option<Period>)
    ensures b.None? <==> forall r | r in log :: !OlderOfSlot(r, exercise, session, target)
    ensures b.Some? ==> exists r :: r in log && OlderOfSlot(r, exercise, session, target) && PeriodOf(r) == b.value
    ensures b.Some? ==> forall r | r in log && OlderOfSlot(r, exercise, session, target) :: !Before(b.value, PeriodOf(r))
  {
    var h := Older(log, exercise, session, target);
    if |h| == 0 then
      None
    else
      assert h[0] in h;
      assert forall r | r in h :: NewerOrSame(h[0], r) by {
        forall r | r in h
          ensures NewerOrSame(h[0], r)
        {
          var k :| 0 <= k < |h| && h[k] == r;
          if k > 0 {
            assert NewerOrSame(h[0], h[k]);
          }
        }
      }
      Some(PeriodOf(h[0]))
  }

  /** The baseline is the newest of the recent periods. */
  lemma BaselineIsNewestRecent(log: seq<Row>, exercise: string, session: string, target: Period)
    ensures Baseline(log, exercise, session, target).None? <==> |RecentPeriods(log, exercise, session, target)| == 0
    ensures Baseline(log, exercise, session, target).Some? ==>
      Baseline(log, exercise, session, target).value == RecentPeriods(log, exercise, session, target)[0]
  {
    var h := Older(log, exercise, session, target);
    var all := DistinctPeriods(h);
    if |h| > 0 {
      assert Take(all, 2)[0] == all[0];
    }
  }

  /** `h_prev`: the rows of the baseline period, taken from the history. */
  function BaselineRows(log: seq<Row>, exercise: string, session: string, target: Period): (rows: seq<Row>)
    ensures Baseline(log, exercise, session, target).None? ==> rows == []
    ensures Baseline(log, exercise, session, target).Some? ==>
      rows == Filter(Filter(log, OfSlot(exercise, session)), AtPeriod(Baseline(log, exercise, session, target).value))
  {
    match Baseline(log, exercise, session, target)
    case None => []
    case Some(p) =>
      var slot := Filter(log, OfSlot(exercise, session));
      var older := Filter(slot, OlderThan(target));
      assert Before(p, target) by {
        var r :| r in log && OlderOfSlot(r, exercise, session, target) && PeriodOf(r) == p;
      }
      SortStable(older, NewerOrSame, AtPeriod(p));
      FilterImplied(slot, OlderThan(target), AtPeriod(p));
      Filter(Older(log, exercise, session, target), AtPeriod(p))
  }

  /** `curr`: what is already logged for this exercise and session in the
      target period, in log order. */
  function CurrentRows(log: seq<Row>, exercise: string, session: string, target: Period): (rows: seq<Row>)
    ensures forall r | r in rows :: r in log && r.exercise == exercise && r.session == session && PeriodOf(r) == target
    ensures forall r | r in log && r.exercise == exercise && r.session == session && PeriodOf(r) == target :: r in rows
  {
    Filter(Filter(log, OfSlot(exercise, session)), AtPeriod(target))
  }

  /** With data only at (1, 5), (2, 1), (2, 2) and (2, 3), and some of it at
      (2, 2), the baseline for cycle 2, week 3 is (2, 2). */
  lemma BaselineExample(log: seq<Row>)
    requires forall r | r in log :: PeriodOf(r) in [Period(1, 5), Period(2, 1), Period(2, 2), Period(2, 3)]
    requires exists r :: r in log && r.exercise == "Bench" && r.session == "Push" && PeriodOf(r) == Period(2, 2)
    ensures Baseline(log, "Bench", "Push", Period(2, 3)) == Some(Period(2, 2))
  {
    var r :| r in log && r.exercise == "Bench" && r.session == "Push" && PeriodOf(r) == Period(2, 2);
    assert OlderOfSlot(r, "Bench", "Push", Period(2, 3));
    var b := Baseline(log, "Bench", "Push", Period(2, 3));
    var w :| w in log && OlderOfSlot(w, "Bench", "Push", Period(2, 3)) && PeriodOf(w) == b.value;
    assert PeriodOf(w) in [Period(1, 5), Period(2, 1), Period(2, 2), Period(2, 3)];
  }
}

=== FILE: program.dfy ===
/** The training program: an ordered mapping from session name to its list of
    exercises, the one-time migration of legacy lists of plain names, and the
    edits of the programme tab (reorder, remove, append, new session). */
module Program {
  import opened Seqs

  /** One entry of a session's list as stored: a legacy plain name, or an
      object `{"name": …, "sets": …}`. The name of an object is itself an
      entry, because migrating a list whose first element is a plain name
      wraps every element, objects included. */
  datatype Item = Plain(text: string) | Entry(name: Item, sets: int)

  datatype Session = Session(name: string, items: seq<Item>)

  /** Sessions in dictionary order. */
  type Prog = seq<Session>

  /** Dictionary keys are unique. */
  ghost predicate UniqueNames(p: Prog)
  {
    forall i, j :: 0 <= i < j < |p| ==> p[i].name != p[j].name
  }

  /** The name shown for an entry. */
  function ItemName(it: Item): (n: string)
    ensures it.Plain? ==> n == it.text
    ensures WellFormed(it) ==> n == it.name.text
  {
    match it
    case Plain(n) => n
    case Entry(n, _) => ItemName(n)
  }

  /** An entry of the current shape: `{"name": <text>, "sets": n}`. */
  predicate WellFormed(it: Item)
  {
    it.Entry? && it.name.Plain?
  }

  const LegacySets: int := 3

  /** Migration on load: a non-empty list whose first element is a plain name has
      every element wrapped as `{"name": element, "sets": 3}`; any other list
      is kept. */
  function MigrateItems(items: seq<Item>): (r: seq<Item>)
    ensures |r| == |items|
    ensures forall i :: 0 <= i < |r| ==> ItemName(r[i]) == ItemName(items[i])
    ensures |r| > 0 ==> r[0].Entry?
    ensures (forall i :: 0 <= i < |items| ==> items[i].Plain?) ==>
      forall i :: 0 <= i < |r| ==> WellFormed(r[i]) && r[i].sets == LegacySets
    ensures |items| > 0 && items[0].Plain? ==>
      forall i :: 0 <= i < |r| ==> r[i].Entry? && r[i].name == items[i] && r[i].sets == LegacySets
    ensures (|items| == 0 || items[0].Entry?) ==> r == items
  {
    if |items| > 0 && items[0].Plain? then
      seq(|items|, i requires 0 <= i < |items| => Entry(items[i], LegacySets))
    else
      items
  }

  function Migrate(p: Prog): (q: Prog)
    ensures |q| == |p|
    ensures forall i :: 0 <= i < |p| ==> q[i].name == p[i].name && q[i].items == MigrateItems(p[i].items)
  {
    seq(|p|, i requires 0 <= i < |p| => Session(p[i].name, MigrateItems(p[i].items)))
  }

  /** Running the migration on every load is harmless: a migrated program is
      left as it is. */
  lemma MigrateIdempotent(p: Prog)
    ensures Migrate(Migrate(p)) == Migrate(p)
    ensures UniqueNames(p) ==> UniqueNames(Migrate(p))
  {
  }

  /** The session up button: move a session one place up, unless it is first. */
  function MoveSessionUp(p: Prog, i: nat): (q: Prog)
    requires i < |p|
    ensures |q| == |p|
    ensures multiset(q) == multiset(p)
    ensures i > 0 ==> q[i - 1] == p[i] && q[i] == p[i - 1]
    ensures forall k :: 0 <= k < |p| && k != i && k != i - 1 ==> q[k] == p[k]
  {
    if i > 0 then Swap(p, i - 1, i) else p
  }

  /** The session down button: move a session one place down, unless it is last. */
  function MoveSessionDown(p: Prog, i: nat): (q: Prog)
    requires i < |p|
    ensures |q| == |p|
    ensures multiset(q) == multiset(p)
    ensures i < |p| - 1 ==> q[i + 1] == p[i] && q[i] == p[i + 1]
    ensures forall k :: 0 <= k < |p| && k != i && k != i + 1 ==> q[k] == p[k]
  {
    if i < |p| - 1 then Swap(p, i, i + 1) else p
  }

  /** Moving up and then back down restores the program, and reordering keeps
      the keys unique. */
  lemma MoveUpThenDown(p: Prog, i: nat)
    requires 0 < i < |p|
    ensures MoveSessionDown(MoveSessionUp(p, i), i - 1) == p
    ensures UniqueNames(p) ==> UniqueNames(MoveSessionUp(p, i)) && UniqueNames(MoveSessionDown(p, i))
  {
    SwapTwice(p, i - 1, i);
  }

  /** Deleting a session: `del prog[j]`. */
  function DeleteSession(p: Prog, i: nat): (q: Prog)
    requires i < |p|
    ensures |q| == |p| - 1
    ensures forall k :: 0 <= k < |q| ==> q[k] == (if k < i then p[k] else p[k + 1])
    ensures UniqueNames(p) ==> UniqueNames(q) && forall s | s in q :: s.name != p[i].name
  {
    RemoveAt(p, i)
  }

  function IndexOf(p: Prog, name: string): (r: int)
    ensures -1 <= r < |p|
    ensures r >= 0 ==> p[r].name == name && forall k :: 0 <= k < r ==> p[k].name != name
    ensures r < 0 ==> forall k :: 0 <= k < |p| ==> p[k].name != name
  {
    if |p| == 0 then -1
    else if p[|p| - 1].name == name && IndexOf(p[..|p| - 1], name) < 0 then |p| - 1
    else IndexOf(p[..|p| - 1], name)
  }

  /** Creating a session: `prog[name] = []` for a non-empty name. A new name is
      appended; an existing name keeps its place and loses its exercises. */
  function NewSession(p: Prog, name: string): (q: Prog)
    ensures name == "" ==> q == p
    ensures name != "" ==> exists k :: 0 <= k < |q| && q[k] == Session(name, [])
    ensures name != "" && (forall k :: 0 <= k < |p| ==> p[k].name != name) ==>
      q == p + [Session(name, [])]
    ensures |q| == |p| || |q| == |p| + 1
    ensures forall k :: 0 <= k < |p| && p[k].name != name ==> q[k] == p[k]
    ensures name != "" && UniqueNames(p) ==>
      forall k :: 0 <= k < |p| && p[k].name == name ==> |q| == |p| && q[k] == Session(name, [])
    ensures UniqueNames(p) ==> UniqueNames(q)
  {
    if name == "" then p
    else
      var k := IndexOf(p, name);
      if k >= 0 then
        var q := p[k := Session(name, [])];
        assert q[k] == Session(name, []);
        q
      else
        var q := p + [Session(name, [])];
        assert q[|p|] == Session(name, []);
        q
  }

  /** Replaces the exercise list of session `j`. */
  function WithItems(p: Prog, j: nat, items: seq<Item>): (q: Prog)
    requires j < |p|
    ensures |q| == |p| && q[j] == Session(p[j].name, items)
    ensures forall k :: 0 <= k < |p| && k != j ==> q[k] == p[k]
    ensures forall k :: 0 <= k < |p| ==> q[k].name == p[k].name
    ensures UniqueNames(p) ==> UniqueNames(q)
  {
    p[j := Session(p[j].name, items)]
  }

  /** The sets field: a new planned set count for one entry of an object. */
  function SetSets(p: Prog, j: nat, i: nat, n: int): (q: Prog)
    requires j < |p| && i < |p[j].items| && p[j].items[i].Entry?
    ensures |q| == |p|
    ensures |q[j].items| == |p[j].items|
    ensures q[j].items[i] == Entry(p[j].items[i].name, n)
    ensures ItemName(q[j].items[i]) == ItemName(p[j].items[i])
    ensures forall k :: 0 <= k < |p[j].items| && k != i ==> q[j].items[k] == p[j].items[k]
    ensures forall k :: 0 <= k < |p| && k != j ==> q[k] == p[k]
    ensures forall k :: 0 <= k < |p| ==> q[k].name == p[k].name
  {
    var items := p[j].items;
    WithItems(p, j, items[i := Entry(items[i].name, n)])
  }

  /** Setting a count twice keeps only the last, and setting the current
      count changes nothing. */
  lemma SetSetsLastWins(p: Prog, j: nat, i: nat, n: int, m: int)
    requires j < |p| && i < |p[j].items| && p[j].items[i].Entry?
    ensures SetSets(SetSets(p, j, i, n), j, i, m) == SetSets(p, j, i, m)
    ensures SetSets(p, j, i, p[j].items[i].sets) == p
  {
    var q := SetSets(p, j, i, n);
    var a := SetSets(q, j, i, m);
    var b := SetSets(p, j, i, m);
    assert a[j].items == b[j].items;
    assert forall k :: 0 <= k < |p| ==> a[k] == b[k];
    var c := SetSets(p, j, i, p[j].items[i].sets);
    assert c[j].items == p[j].items;
    assert forall k :: 0 <= k < |p| ==> c[k] == p[k];
  }

  /** The exercise up button: move an exercise one place up within its session. */
  function MoveItemUp(p: Prog, j: nat, i: nat): (q: Prog)
    requires j < |p| && i < |p[j].items|
    ensures |q| == |p|
    ensures multiset(q[j].items) == multiset(p[j].items) && |q[j].items| == |p[j].items|
    ensures i > 0 ==> q[j].items[i - 1] == p[j].items[i] && q[j].items[i] == p[j].items[i - 1]
    ensures forall k :: 0 <= k < |p[j].items| && k != i && k != i - 1 ==> q[j].items[k] == p[j].items[k]
    ensures forall k :: 0 <= k < |p| && k != j ==> q[k] == p[k]
    ensures forall k :: 0 <= k < |p| ==> q[k].name == p[k].name
  {
    if i > 0 then WithItems(p, j, Swap(p[j].items, i - 1, i)) else p
  }

  /** The exercise down button: move an exercise one place down within its session. */
  function MoveItemDown(p: Prog, j: nat, i: nat): (q: Prog)
    requires j < |p| && i < |p[j].items|
    ensures |q| == |p|
    ensures multiset(q[j].items) == multiset(p[j].items) && |q[j].items| == |p[j].items|
    ensures i < |p[j].items| - 1 ==> q[j].items[i + 1] == p[j].items[i] && q[j].items[i] == p[j].items[i + 1]
    ensures forall k :: 0 <= k < |p[j].items| && k != i && k != i + 1 ==> q[j].items[k] == p[j].items[k]
    ensures forall k :: 0 <= k < |p| && k != j ==> q[k] == p[k]
    ensures forall k :: 0 <= k < |p| ==> q[k].name == p[k].name
  {
    if i < |p[j].items| - 1 then WithItems(p, j, Swap(p[j].items, i, i + 1)) else p
  }

  lemma MoveItemUpThenDown(p: Prog, j: nat, i: nat)
    requires j < |p| && 0 < i < |p[j].items|
    ensures MoveItemDown(MoveItemUp(p, j, i), j, i - 1) == p
  {
    var q := MoveItemUp(p, j, i);
    assert q[j].items == Swap(p[j].items, i - 1, i);
    SwapTwice(p[j].items, i - 1, i);
    var r := MoveItemDown(q, j, i - 1);
    assert r[j] == p[j];
    assert forall k :: 0 <= k < |p| ==> r[k] == p[k];
  }

  /** Removing an exercise: `prog[j].pop(i)`. */
  function RemoveItem(p: Prog, j: nat, i: nat): (q: Prog)
    requires j < |p| && i < |p[j].items|
    ensures |q| == |p|
    ensures |q[j].items| == |p[j].items| - 1
    ensures forall k :: 0 <= k < |q[j].items| ==>
      q[j].items[k] == (if k < i then p[j].items[k] else p[j].items[k + 1])
    ensures forall k :: 0 <= k < |p| && k != j ==> q[k] == p[k]
    ensures forall k :: 0 <= k < |p| ==> q[k].name == p[k].name
  {
    WithItems(p, j, RemoveAt(p[j].items, i))
  }

  /** Adding an exercise: append `{"name": name, "sets": sets}` when a name was typed. */
  function AddItem(p: Prog, j: nat, name: string, sets: int): (q: Prog)
    requires j < |p|
    ensures |q| == |p|
    ensures name == "" ==> q == p
    ensures name != "" ==>
      (q[j].items == p[j].items + [Entry(Plain(name), sets)] && WellFormed(q[j].items[|p[j].items|]))
    ensures forall k :: 0 <= k < |p| && k != j ==> q[k] == p[k]
    ensures forall k :: 0 <= k < |p| ==> q[k].name == p[k].name
  {
    if name == "" then p else WithItems(p, j, p[j].items + [Entry(Plain(name), sets)])
  }
}

=== FILE: reconcile.dfy ===
/** Writing to the log. "Valider l'exercice" replaces everything logged under
    one (cycle, week, session, exercise) key by the sets typed in the editor;
    "Skip Exo" and "Séance loupée" only append sentinel rows. */
module Reconcile {
  import opened Rows
  import opened Seqs
  import Program
  import History

  /** One line of the set editor: Série, Reps, Poids, Remarque. */
  datatype EditorRow = EditorRow(setNo: int, reps: int, weight: real, note: string)

  /** Editor lines kept on save: `Poids > 0 or Reps > 0`. */
  function Entered(): (keep: EditorRow -> bool)
    ensures forall e, k :: keep(e) == Done(StampLine(e, k))
  {
    (e: EditorRow) => e.weight > 0.0 || e.reps > 0
  }

  /** One editor line stamped with the key columns. */
  function StampLine(e: EditorRow, k: SlotKey): Row
  {
    Row(k.cycle, k.week, k.session, k.exercise, e.setNo, e.reps, e.weight, e.note)
  }

  /** Editor lines stamped with the key columns. */
  function Stamp(es: seq<EditorRow>, k: SlotKey): (rs: seq<Row>)
    ensures |rs| == |es|
    ensures forall i :: 0 <= i < |es| ==>
      KeyOf(rs[i]) == k && rs[i].setNo == es[i].setNo && rs[i].reps == es[i].reps
      && rs[i].weight == es[i].weight && rs[i].note == es[i].note
  {
    seq(|es|, i requires 0 <= i < |es| => StampLine(es[i], k))
  }

  /** Validating an exercise: the rows outside the key, then the entered editor lines. */
  function Save(log: seq<Row>, editor: seq<EditorRow>, k: SlotKey): (r: seq<Row>)
    ensures Filter(r, OffKey(k)) == Filter(log, OffKey(k))
    ensures Filter(r, OnKey(k)) == Stamp(Filter(editor, Entered()), k)
    ensures forall x | x in r && KeyOf(x) == k :: Done(x)
    ensures |r| == |Filter(log, OffKey(k))| + |Filter(editor, Entered())|
    ensures r[..|Filter(log, OffKey(k))|] == Filter(log, OffKey(k))
    ensures r[|Filter(log, OffKey(k))|..] == Stamp(Filter(editor, Entered()), k)
  {
    var kept := Filter(log, OffKey(k));
    var entered := Filter(editor, Entered());
    var added := Stamp(entered, k);
    forall x | x in added
      ensures KeyOf(x) == k && Done(x)
    {
      var i :| 0 <= i < |added| && added[i] == x;
      assert entered[i] in entered;
    }
    FilterConcat(kept, added, OffKey(k));
    FilterConcat(kept, added, OnKey(k));
    FilterIdempotent(log, OffKey(k));
    FilterNone(added, OffKey(k));
    FilterNone(kept, OnKey(k));
    FilterAll(added, OnKey(k));
    kept + added
  }

  /** Counted with multiplicity, a save trades the rows under the key for the
      stamped entered lines and keeps every other row. */
  lemma SaveReplacesKeyRows(log: seq<Row>, editor: seq<EditorRow>, k: SlotKey)
    ensures multiset(Save(log, editor, k)) + multiset(Filter(log, OnKey(k)))
      == multiset(log) + multiset(Stamp(Filter(editor, Entered()), k))
  {
    var r := Save(log, editor, k);
    FilterMultiset(log, OffKey(k), OnKey(k));
    FilterMultiset(r, OffKey(k), OnKey(k));
  }

  /** The log after a save is determined by what was outside the key. */
  lemma {:induction false} SaveOnlyDependsOnOtherKeys(log1: seq<Row>, log2: seq<Row>, editor: seq<EditorRow>, k: SlotKey)
    requires Filter(log1, OffKey(k)) == Filter(log2, OffKey(k))
    ensures Save(log1, editor, k) == Save(log2, editor, k)
  {
  }

  /** Reading the period back right after a save shows exactly the entered
      editor lines, in editor order. */
  lemma SavedRowsAreCurrent(log: seq<Row>, editor: seq<EditorRow>, k: SlotKey)
    ensures History.CurrentRows(Save(log, editor, k), k.exercise, k.session, Period(k.cycle, k.week))
      == Stamp(Filter(editor, Entered()), k)
  {
    FilterBoth(Save(log, editor, k), OfSlot(k.exercise, k.session), AtPeriod(Period(k.cycle, k.week)), OnKey(k));
  }

  /** The last save under a key wins: an earlier save under the same key
      leaves no trace. */
  lemma LastSaveWins(log: seq<Row>, first: seq<EditorRow>, second: seq<EditorRow>, k: SlotKey)
    ensures Save(Save(log, first, k), second, k) == Save(log, second, k)
  {
    SaveOnlyDependsOnOtherKeys(Save(log, first, k), log, second, k);
  }

  /** Saving the same editor contents twice is the same as saving once. */
  lemma SaveIdempotent(log: seq<Row>, editor: seq<EditorRow>, k: SlotKey)
    ensures Save(Save(log, editor, k), editor, k) == Save(log, editor, k)
  {
    LastSaveWins(log, editor, editor, k);
  }

  const SkipNote: string := "SKIP \U{1F6AB}"
  const MissedNote: string := "Loupée ❌"

  /** The placeholder row of "Skip Exo": set 1, no reps, no load. */
  function SkipRow(k: SlotKey): (r: Row)
    ensures KeyOf(r) == k && r.setNo == 1 && !Done(r) && r.note == SkipNote
  {
    Row(k.cycle, k.week, k.session, k.exercise, 1, 0, 0.0, SkipNote)
  }

  /** Skipping an exercise: the skip marker is appended; nothing is removed, even
      earlier rows or markers under the same key. */
  function AppendSkip(log: seq<Row>, k: SlotKey): (r: seq<Row>)
    ensures |r| == |log| + 1
    ensures r[..|log|] == log
    ensures r[|log|] == SkipRow(k)
    ensures KeyOf(r[|log|]) == k && !Done(r[|log|])
    ensures Filter(r, OffKey(k)) == Filter(log, OffKey(k))
  {
    var r := log + [SkipRow(k)];
    FilterConcat(log, [SkipRow(k)], OffKey(k));
    assert r[..|log|] == log;
    r
  }

  /** A later save under the key discards the skip marker. */
  lemma SaveSupersedesSkip(log: seq<Row>, editor: seq<EditorRow>, k: SlotKey)
    ensures Save(AppendSkip(log, k), editor, k) == Save(log, editor, k)
  {
    SaveOnlyDependsOnOtherKeys(AppendSkip(log, k), log, editor, k);
  }

  /** A missed session: one "missed" marker per exercise of the session, all
      appended after the existing log. */
  function AppendMissed(log: seq<Row>, cycle: int, week: int, session: Program.Session): (r: seq<Row>)
    ensures |r| == |log| + |session.items|
    ensures r[..|log|] == log
    ensures forall i :: 0 <= i < |session.items| ==>
      var x := r[|log| + i];
      KeyOf(x) == SlotKey(cycle, week, session.name, Program.ItemName(session.items[i]))
      && x.setNo == 1 && !Done(x) && x.note == MissedNote
  {
    var marks := seq(|session.items|, i requires 0 <= i < |session.items| =>
      Row(cycle, week, session.name, Program.ItemName(session.items[i]), 1, 0, 0.0, MissedNote));
    assert (log + marks)[..|log|] == log;
    log + marks
  }

  /** A first save on an empty log stores exactly the entered sets. */
  lemma FirstSaveExample()
    ensures var k := SlotKey(1, 1, "Push", "Bench");
      Save([], [EditorRow(1, 8, 60.0, ""), EditorRow(2, 0, 0.0, "")], k)
        == [Row(1, 1, "Push", "Bench", 1, 8, 60.0, "")]
  {
    var k := SlotKey(1, 1, "Push", "Bench");
    var ed := [EditorRow(1, 8, 60.0, ""), EditorRow(2, 0, 0.0, "")];
    assert ed[1..] == [EditorRow(2, 0, 0.0, "")];
    assert Filter(ed, Entered()) == [EditorRow(1, 8, 60.0, "")];
  }
}

=== FILE: rows.dfy ===
/** One row of the history sheet (columns Cycle, Semaine, Séance, Exercice,
    Série, Reps, Poids, Remarque) once its numeric cells have been coerced,
    and the orders the app compares rows by. */
module Rows {

  datatype Option<T> = None | Some(value: T)

  datatype Row = Row(
    cycle: int,
    week: int,        // stored week: 0 stands for entered week 10
    session: string,
    exercise: string,
    setNo: int,       // Série
    reps: int,
    weight: real,     // Poids, kg
    note: string)     // Remarque

  /** A training period: the (Cycle, Semaine) pair. */
  datatype Period = Period(cycle: int, week: int)

  function PeriodOf(r: Row): Period
  {
    Period(r.cycle, r.week)
  }

  /** Lexicographic "strictly older" on (cycle, week). */
  predicate Before(a: Period, b: Period)
  {
    a.cycle < b.cycle || (a.cycle == b.cycle && a.week < b.week)
  }

  /** The key a save replaces: every set of one exercise in one session of one period. */
  datatype SlotKey = SlotKey(cycle: int, week: int, session: string, exercise: string)

  function KeyOf(r: Row): SlotKey
  {
    SlotKey(r.cycle, r.week, r.session, r.exercise)
  }

  /** A weight × reps performance. */
  datatype Perf = Perf(weight: real, reps: int)

  function PerfOf(r: Row): Perf
  {
    Perf(r.weight, r.reps)
  }

  /** `a` is a better performance than `b`: heavier, or as heavy with more reps. */
  predicate Outperforms(a: Perf, b: Perf)
  {
    a.weight > b.weight || (a.weight == b.weight && a.reps > b.reps)
  }

  /** `Outperforms` is a strict total order on performances. */
  lemma OutperformsStrictTotal(a: Perf, b: Perf, c: Perf)
    ensures !Outperforms(a, a)
    ensures Outperforms(a, b) ==> !Outperforms(b, a)
    ensures a != b ==> Outperforms(a, b) || Outperforms(b, a)
    ensures Outperforms(a, b) && Outperforms(b, c) ==> Outperforms(a, c)
  {
  }

  /** Row selections used as boolean masks over the log. */

  function OfSlot(exercise: string, session: string): Row -> bool
  {
    (r: Row) => r.exercise == exercise && r.session == session
  }

  function OlderThan(target: Period): Row -> bool
  {
    (r: Row) => Before(PeriodOf(r), target)
  }

  function AtPeriod(p: Period): Row -> bool
  {
    (r: Row) => PeriodOf(r) == p
  }

  function OnKey(k: SlotKey): Row -> bool
  {
    (r: Row) => KeyOf(r) == k
  }

  function OffKey(k: SlotKey): Row -> bool
  {
    (r: Row) => KeyOf(r) != k
  }

  function OfExercise(exercise: string): Row -> bool
  {
    (r: Row) => r.exercise == exercise
  }

  /** A set that was actually done: `Poids > 0 or Reps > 0`. */
  predicate Done(r: Row)
  {
    r.weight > 0.0 || r.reps > 0
  }

  function HasReps(): Row -> bool
  {
    (r: Row) => r.reps > 0
  }

  /** Most recent first: `a` may precede `b` when `b` is not more recent. */
  predicate NewerOrSame(a: Row, b: Row)
  {
    !Before(PeriodOf(a), PeriodOf(b))
  }

  lemma NewerOrSameTotalPreorder()
    ensures forall a, b :: NewerOrSame(a, b) || NewerOrSame(b, a)
    ensures forall a, b, c :: NewerOrSame(a, b) && NewerOrSame(b, c) ==> NewerOrSame(a, c)
  {
  }
}

=== FILE: seqs.dfy ===
/** Generic sequence operations the workout log is built from: order-preserving
    filtering (a boolean-mask selection of table rows) and a stable insertion
    sort parameterised by a "may come first" relation. */
module Seqs {

  /** The elements of `s` satisfying `p`, in their original order. */
  function Filter<T>(s: seq<T>, p: T -> bool): (r: seq<T>)
    ensures |r| <= |s|
    ensures forall x | x in r :: x in s && p(x)
    ensures forall x | x in s && p(x) :: x in r
  {
    if |s| == 0 then []
    else (if p(s[0]) then [s[0]] else []) + Filter(s[1..], p)
  }

  lemma {:induction false} FilterConcat<T>(a: seq<T>, b: seq<T>, p: T -> bool)
    ensures Filter(a + b, p) == Filter(a, p) + Filter(b, p)
  {
    if |a| == 0 {
      assert a + b == b;
    } else {
      assert (a + b)[1..] == a[1..] + b;
      FilterConcat(a[1..], b, p);
    }
  }

  /** Keeping only what already satisfies `p` changes nothing. */
  lemma {:induction false} FilterAll<T>(s: seq<T>, p: T -> bool)
    requires forall x :: x in s ==> p(x)
    ensures Filter(s, p) == s
  {
    if |s| > 0 {
      assert s[0] in s;
      FilterAll(s[1..], p);
      assert [s[0]] + s[1..] == s;
    }
  }

  /** Filtering away everything leaves nothing. */
  lemma FilterNone<T>(s: seq<T>, p: T -> bool)
    requires forall x :: x in s ==> !p(x)
    ensures Filter(s, p) == []
  {
    if Filter(s, p) != [] {
      assert Filter(s, p)[0] in Filter(s, p);
    }
  }

  lemma FilterIdempotent<T>(s: seq<T>, p: T -> bool)
    ensures Filter(Filter(s, p), p) == Filter(s, p)
  {
    FilterAll(Filter(s, p), p);
  }

  /** A second, weaker selection after a stronger one is redundant. */
  lemma {:induction false} FilterImplied<T>(s: seq<T>, p: T -> bool, q: T -> bool)
    requires forall x :: q(x) ==> p(x)
    ensures Filter(Filter(s, p), q) == Filter(s, q)
  {
    if |s| > 0 {
      FilterImplied(s[1..], p, q);
      FilterConcat(if p(s[0]) then [s[0]] else [], Filter(s[1..], p), q);
    }
  }

  /** Two selections in a row are one selection by their conjunction. */
  lemma {:induction false} FilterBoth<T>(s: seq<T>, p: T -> bool, q: T -> bool, both: T -> bool)
    requires forall x :: both(x) == (p(x) && q(x))
    ensures Filter(Filter(s, p), q) == Filter(s, both)
  {
    if |s| > 0 {
      FilterBoth(s[1..], p, q, both);
      FilterConcat(if p(s[0]) then [s[0]] else [], Filter(s[1..], p), q);
    }
  }

  /** A selection and its complement partition the input, counted with
      multiplicity. */
  lemma {:induction false} FilterMultiset<T>(s: seq<T>, p: T -> bool, q: T -> bool)
    requires forall x :: q(x) == !p(x)
    ensures multiset(Filter(s, p)) + multiset(Filter(s, q)) == multiset(s)
  {
    if |s| > 0 {
      FilterMultiset(s[1..], p, q);
      assert s == [s[0]] + s[1..];
    }
  }

  /** `le(a, b)`: `a` may be placed before `b`. */
  ghost predicate TotalPreorder<T(!new)>(le: (T, T) -> bool)
  {
    && (forall a, b :: le(a, b) || le(b, a))
    && (forall a, b, c :: le(a, b) && le(b, c) ==> le(a, c))
  }

  ghost predicate SortedBy<T>(s: seq<T>, le: (T, T) -> bool)
  {
    forall i, j :: 0 <= i < j < |s| ==> le(s[i], s[j])
  }

  /** A selection of a sorted sequence is sorted. */
  lemma {:induction false} FilterSorted<T>(s: seq<T>, p: T -> bool, le: (T, T) -> bool)
    requires SortedBy(s, le)
    ensures SortedBy(Filter(s, p), le)
  {
    if |s| > 0 {
      assert SortedBy(s[1..], le);
      FilterSorted(s[1..], p, le);
      var rest := Filter(s[1..], p);
      forall x | x in rest
        ensures le(s[0], x)
      {
        var k :| 0 <= k < |s[1..]| && s[1..][k] == x;
        assert s[k + 1] == x;
      }
      if p(s[0]) {
        forall i, j | 0 <= i < j < |[s[0]] + rest|
          ensures le(([s[0]] + rest)[i], ([s[0]] + rest)[j])
        {
          if i == 0 {
            assert rest[j - 1] in rest;
          }
        }
      }
    }
  }

  /** Places `x` in front of the first element it may precede. */
  function Insert<T(!new)>(x: T, t: seq<T>, le: (T, T) -> bool): (r: seq<T>)
    ensures multiset(r) == multiset(t) + multiset{x}
    ensures TotalPreorder(le) && SortedBy(t, le) ==> SortedBy(r, le)
    decreases |t|
  {
    if |t| == 0 || le(x, t[0]) then
      [x] + t
    else
      var rest := Insert(x, t[1..], le);
      assert t == [t[0]] + t[1..];
      assert TotalPreorder(le) && SortedBy(t, le) ==> SortedBy([t[0]] + rest, le) by {
        if TotalPreorder(le) && SortedBy(t, le) {
          forall y | y in multiset(rest)
            ensures le(t[0], y)
          {
            if y != x {
              assert y in multiset(t[1..]);
              var k :| 0 <= k < |t[1..]| && t[1..][k] == y;
              assert t[k + 1] == y;
            }
          }
          forall i, j | 0 <= i < j < |[t[0]] + rest|
            ensures le(([t[0]] + rest)[i], ([t[0]] + rest)[j])
          {
            if i == 0 {
              assert rest[j - 1] in multiset(rest);
            }
          }
        }
      }
      [t[0]] + rest
  }

  /** Stable insertion sort: a permutation of `s`, ordered by `le` when `le`
      is a total preorder, and keeping the input order among equal elements. */
  function Sort<T(!new)>(s: seq<T>, le: (T, T) -> bool): (r: seq<T>)
    ensures multiset(r) == multiset(s)
    ensures |r| == |s|
    ensures forall x | x in r :: x in s
    ensures forall x | x in s :: x in r
    ensures TotalPreorder(le) ==> SortedBy(r, le)
  {
    if |s| == 0 then []
    else
      var rest := Sort(s[1..], le);
      assert s == [s[0]] + s[1..];
      var r := Insert(s[0], rest, le);
      assert multiset(r) == multiset(s);
      SameMembers(r, s);
      r
  }

  /** Sequences with the same multiset have the same members. */
  lemma SameMembers<T>(a: seq<T>, b: seq<T>)
    requires multiset(a) == multiset(b)
    ensures forall x | x in a :: x in b
    ensures forall x | x in b :: x in a
  {
    forall x | x in a
      ensures x in b
    {
      assert x in multiset(a);
    }
    forall x | x in b
      ensures x in a
    {
      assert x in multiset(b);
    }
  }

  /** Inserting `x` keeps, for every class `q` of mutually equivalent
      elements, the relative order of that class: `x` stays in front. */
  lemma {:induction false} InsertStable<T(!new)>(x: T, t: seq<T>, le: (T, T) -> bool, q: T -> bool)
    requires forall a, b :: q(a) && q(b) ==> le(a, b)
    ensures Filter(Insert(x, t, le), q) == Filter([x] + t, q)
    decreases |t|
  {
    if |t| == 0 || le(x, t[0]) {
    } else {
      var a, b := Filter([x], q), Filter([t[0]], q);
      calc {
        Filter(Insert(x, t, le), q);
        Filter([t[0]] + Insert(x, t[1..], le), q);
        { FilterConcat([t[0]], Insert(x, t[1..], le), q); }
        b + Filter(Insert(x, t[1..], le), q);
        { InsertStable(x, t[1..], le, q); FilterConcat([x], t[1..], q); }
        b + (a + Filter(t[1..], q));
        { SingletonsCommute(x, t[0], q, Filter(t[1..], q)); }
        a + (b + Filter(t[1..], q));
        { FilterConcat([t[0]], t[1..], q); assert [t[0]] + t[1..] == t; }
        a + Filter(t, q);
        { FilterConcat([x], t, q); }
        Filter([x] + t, q);
      }
    }
  }

  /** The selections of two elements not both selected can be exchanged. */
  lemma SingletonsCommute<T>(x: T, y: T, q: T -> bool, rest: seq<T>)
    requires !(q(x) && q(y))
    ensures Filter([y], q) + (Filter([x], q) + rest) == Filter([x], q) + (Filter([y], q) + rest)
  {
    assert Filter([x], q) == (if q(x) then [x] else []);
    assert Filter([y], q) == (if q(y) then [y] else []);
  }

  /** Sorting is stable: the elements of one equivalence class `q` come out
      in the order they went in. */
  lemma {:induction false} SortStable<T(!new)>(s: seq<T>, le: (T, T) -> bool, q: T -> bool)
    requires forall a, b :: q(a) && q(b) ==> le(a, b)
    ensures Filter(Sort(s, le), q) == Filter(s, q)
  {
    if |s| > 0 {
      var t := Sort(s[1..], le);
      calc {
        Filter(Sort(s, le), q);
        Filter(Insert(s[0], t, le), q);
        { InsertStable(s[0], t, le, q); }
        Filter([s[0]] + t, q);
        { FilterConcat([s[0]], t, q); }
        Filter([s[0]], q) + Filter(t, q);
        { SortStable(s[1..], le, q); }
        Filter([s[0]], q) + Filter(s[1..], q);
        { FilterConcat([s[0]], s[1..], q); assert [s[0]] + s[1..] == s; }
        Filter(s, q);
      }
    }
  }

  function KeyDiffers<T, K(==)>(key: T -> K, k: K): T -> bool
  {
    (x: T) => key(x) != k
  }

  /** The keys of `s` in order of first appearance, each once (`drop_duplicates`). */
  function DistinctKeys<T, K(==)>(s: seq<T>, key: T -> K): (ks: seq<K>)
    ensures forall k | k in ks :: exists x :: x in s && key(x) == k
    ensures forall x | x in s :: key(x) in ks
    ensures |s| > 0 ==> |ks| > 0 && ks[0] == key(s[0])
    ensures forall i, j :: 0 <= i < j < |ks| ==> ks[i] != ks[j]
    decreases |s|
  {
    if |s| == 0 then []
    else
      var k := key(s[0]);
      var rest := DistinctKeys(Filter(s[1..], KeyDiffers(key, k)), key);
      assert forall x | x in s :: x == s[0] || x in s[1..];
      assert k !in rest;
      var ks := [k] + rest;
      assert forall i, j :: 0 <= i < j < |ks| ==> ks[i] != ks[j] by {
        forall i, j | 0 <= i < j < |ks|
          ensures ks[i] != ks[j]
        {
          assert ks[j] == rest[j - 1];
          if i > 0 {
            assert ks[i] == rest[i - 1];
          }
        }
      }
      ks
  }

  /** Exchanges the elements at `i` and `j`. */
  function Swap<T>(s: seq<T>, i: nat, j: nat): (r: seq<T>)
    requires i < |s| && j < |s|
    ensures |r| == |s| && r[i] == s[j] && r[j] == s[i]
    ensures forall k :: 0 <= k < |s| && k != i && k != j ==> r[k] == s[k]
    ensures multiset(r) == multiset(s)
  {
    s[i := s[j]][j := s[i]]
  }

  /** Swapping the same two places twice restores the sequence. */
  lemma SwapTwice<T>(s: seq<T>, i: nat, j: nat)
    requires i < |s| && j < |s|
    ensures Swap(Swap(s, i, j), i, j) == s
  {
    var r := Swap(Swap(s, i, j), i, j);
    assert forall k :: 0 <= k < |s| ==> r[k] == s[k];
  }

  /** Drops the element at `i`, keeping the others in order (`list.pop(i)`). */
  function RemoveAt<T>(s: seq<T>, i: nat): (r: seq<T>)
    requires i < |s|
    ensures |r| == |s| - 1
    ensures forall k :: 0 <= k < i ==> r[k] == s[k]
    ensures forall k :: i <= k < |r| ==> r[k] == s[k + 1]
  {
    s[..i] + s[i + 1..]
  }

  /** The first `n` elements, or all of them when there are fewer (`head(n)`). */
  function Take<T>(s: seq<T>, n: nat): (r: seq<T>)
    ensures |r| <= n && |r| <= |s|
    ensures |r| == n || r == s
    ensures forall i :: 0 <= i < |r| ==> r[i] == s[i]
  {
    if |s| <= n then s else s[..n]
  }
}
